=== FILE: README.md ===
# Movie recommendation client: cache, HTTP shim, session and watch history

A Dafny model of the data-access core of a movie discovery application:

- **MovieContext** (`movie_cache.dfy`): the `MoviesProvider` cache. It has four fixed
  category entries (`topRated`, `myList`, `genres`, `home`) and an open table of search
  entries keyed by the trimmed, lower-cased query. Each entry is
  `{data, loading, error, timestamp, promise}` with a five-minute time-to-live.
  Get-or-fetch is split at its `await`. The synchronous part returns fresh data, joins
  the request in flight, or marks the entry loading and issues exactly one request.
  `Settle` is the continuation that writes the response or the failure back.
  Promises are request ids; `requests` logs every network call, so coalescing can be
  counted; time is an integer millisecond argument.
  Pure per-entry functions (`Lookup`, `Call`, `Started`, `Settled`) specify the class
  methods, and the lemmas are stated over them.
- **Api** (`api.dfy`): `apiFetch`. It covers URL resolution against `API_BASE`, the header
  merge that adds `Authorization: Bearer <token>` (the bearer scheme of section 2.1 of
  RFC 6750) unless the caller gave one, the JSON/text choice, and the
  `detail` / `message` / `Request failed: <status>` message chain.
- **Auth** (`auth.dfy`): `AuthProvider`. Its state is `token`, `user`, `loading` and the
  stored token, changed by the profile-load effect, `login`, `signup` and `logout`.
  Network results are outcome parameters; every request is recorded as the `Api.Request`
  the shim would send.
- **History** (`history.dfy`): the watch-history routes. `safe_fetch_movie` is a bounded
  retry loop over abstract attempt outcomes. `get_history` yields one entry per stored id.
  `create_history` is a de-duplicating append into `map<string, seq<int>>`.
- Support modules: `Wrappers` (Option, Result), `JsValue` (JSON values with JavaScript
  and Python truthiness, property reads, `String()`), and `Text` (`startsWith`,
  `includes`, `trim` over the full ECMAScript white-space set, `toLowerCase` for ASCII,
  UTF-16 length, `encodeURIComponent` and its inverse `decodeURIComponent`).

Behaviours of the code that the model reproduces and that are easy to miss:

- `refreshCategory` during an in-flight fetch takes effect at once: the entry is emptied,
  the next call issues a second request for the same category, and the first response
  still overwrites the entry when it lands (`RefreshDuringFetch`).
- A search start does not clear the previous error; only a category start does.
- `login` rethrows the shim's message (or the profile request's), and throws
  `"Login failed"` only when the response has no truthy `access_token`.
- A network failure propagates with the platform's own message.
- A user does not imply a token. Logging out while `login` awaits the profile still lets the
  profile land and become the user, leaving a user with no token (`LogoutDuringLogin`).

## Model

| member | source | states |
|---|---|---|
| MovieContext.ValidityWindow | Recommendation_System/frontend/src/context/movieContext.jsx:18-25 | a missing timestamp is never valid; a (non-zero) timestamp is valid exactly while now is less than timestamp + 300000 ms |
| MovieContext.CacheHit | Recommendation_System/frontend/src/context/movieContext.jsx:32-35 | truthy data with a valid timestamp is returned as is: no request, entry unchanged (categories and search alike) |
| MovieContext.JoinInFlight | Recommendation_System/frontend/src/context/movieContext.jsx:38-41 | a stale entry that is loading with a promise hands out that same promise and issues no request |
| MovieContext.StaleStaysStale | Recommendation_System/frontend/src/context/movieContext.jsx:18-35 | data that is not fresh at one time is not fresh at any later time |
| MovieContext.WaitersJoin | Recommendation_System/frontend/src/context/movieContext.jsx:38-41 | once an entry waits on a request, every later caller (at non-decreasing times) joins it and no request is issued |
| MovieContext.CallsCoalesce | Recommendation_System/frontend/src/context/movieContext.jsx:28-88 | calls at non-decreasing times before any response issue at most one request; a cache hit serves the entry's own data; once a caller waits every later caller waits on the same request; a first miss or join gives every caller one shared promise; calls at one instant all get the same reply |
| MovieContext.HitThenCoalesce | Recommendation_System/frontend/src/context/movieContext.jsx:32-55 | the same coalescing guarantees when the first call is served from the cache and later ones may find it expired |
| MovieContext.EmptyEntryFetches | Recommendation_System/frontend/src/context/movieContext.jsx:189-198 | an emptied entry (refresh, clear, new search key) always issues a request on the next call |
| MovieContext.ExpiredEntryFetches | Recommendation_System/frontend/src/context/movieContext.jsx:21-55 | once five minutes have passed and nothing is in flight, the next call starts a request |
| MovieContext.StoredData | Recommendation_System/frontend/src/context/movieContext.jsx:55-56 | a success stores `res.movies` when truthy, else `res` (category) or `[]` (search); a null body fails like the TypeError it raises |
| MovieContext.SuccessServesHits | Recommendation_System/frontend/src/context/movieContext.jsx:59-68 | after a success whose stored data is truthy, the entry holds the data, no error, not loading, no promise, and serves hits for the next five minutes |
| MovieContext.FalsySuccessMisses | Recommendation_System/frontend/src/context/movieContext.jsx:32-56 | a success whose stored data is falsy (an empty text body, say) serves no hit: the next call issues a new request |
| MovieContext.CategoryFailureKeepsData | Recommendation_System/frontend/src/context/movieContext.jsx:69-81 | a category failure sets the error, clears loading and promise, keeps the old data and timestamp, and rethrows |
| MovieContext.SearchFailureForgets | Recommendation_System/frontend/src/context/movieContext.jsx:160-172 | a search failure resets the entry to no data, no timestamp, the error message, and rethrows |
| MovieContext.StepsKeepLoadingWithPromise | Recommendation_System/frontend/src/context/movieContext.jsx:49-85 | starting keeps `loading` in step with the stored promise; settling always clears both |
| MovieContext.SearchEndpoint | Recommendation_System/frontend/src/context/movieContext.jsx:147 | the search path is `/api/search?query=` followed by URL-safe text |
| MovieContext.SearchEndpointCarriesKey | Recommendation_System/frontend/src/context/movieContext.jsx:147 | decoding the query parameter gives back exactly the key |
| Text.DecodeEncode | Recommendation_System/frontend/src/context/movieContext.jsx:147 | `decodeURIComponent` undoes `encodeURIComponent` on every string, so the encoding loses nothing |
| Text.EncodeInjective | Recommendation_System/frontend/src/context/movieContext.jsx:147 | distinct strings never share an `encodeURIComponent` encoding |
| MovieContext.SearchEndpointInjective | Recommendation_System/frontend/src/context/movieContext.jsx:147 | distinct keys are never sent as the same request path |
| MovieContext.SearchKey | Recommendation_System/frontend/src/context/movieContext.jsx:114 | a key has no surrounding white space and no upper-case ASCII letter |
| MovieContext.SearchKeyIsLoweredCore | Recommendation_System/frontend/src/context/movieContext.jsx:114 | the key is the lower-cased query with only white space removed, and only at its two ends |
| Text.TrimSplits | Recommendation_System/frontend/src/context/movieContext.jsx:110 | `trim` cuts its argument into leading white space, the result and trailing white space, in that order |
| MovieContext.SearchKeyIgnoresCase | Recommendation_System/frontend/src/context/movieContext.jsx:114 | queries that differ only in ASCII letter case share one entry |
| MovieContext.SearchKeyIgnoresPadding | Recommendation_System/frontend/src/context/movieContext.jsx:110-114 | queries that differ only in surrounding white space share one entry and pass the length guard alike |
| MovieContext.MovieCache.constructor | Recommendation_System/frontend/src/context/movieContext.jsx:9-15 | four empty category entries, an empty search table, no requests |
| MovieContext.MovieCache.FetchWithCache | Recommendation_System/frontend/src/context/movieContext.jsx:28-88 | hit, join or start as `Call` decides; on a start, the old data kept, error cleared, one request to the endpoint, promise stored; nothing else changes |
| MovieContext.MovieCache.FetchTopRated | Recommendation_System/frontend/src/context/movieContext.jsx:91-94 | fetchWithCache on `topRated` with `/api/top-rated?min_rating=7&min_votes=1000` |
| MovieContext.MovieCache.FetchMyList | Recommendation_System/frontend/src/context/movieContext.jsx:96-98 | fetchWithCache on `myList` with `/api/user/history/` |
| MovieContext.MovieCache.FetchGenres | Recommendation_System/frontend/src/context/movieContext.jsx:100-102 | fetchWithCache on `genres` with `/api/cold-sample` |
| MovieContext.MovieCache.FetchHome | Recommendation_System/frontend/src/context/movieContext.jsx:104-106 | fetchWithCache on `home` with `/api/cold-sample` |
| MovieContext.MovieCache.SearchMovies | Recommendation_System/frontend/src/context/movieContext.jsx:109-177 | a null query, or one under two UTF-16 units after trimming, gives `[]` with no request and no entry; otherwise hit, join or start on the entry of the normalised key (created empty if new), without clearing the error |
| MovieContext.MovieCache.Settle | Recommendation_System/frontend/src/context/movieContext.jsx:46-82 | the response or failure of a request is written to its category or search entry unconditionally, and every holder of the promise gets the same result |
| MovieContext.MovieCache.GetSearchCache | Recommendation_System/frontend/src/context/movieContext.jsx:180-186 | the entry of the normalised key if present, else a default empty entry; nothing is inserted |
| MovieContext.MovieCache.RefreshCategory | Recommendation_System/frontend/src/context/movieContext.jsx:189-198 | only that category's entry becomes empty |
| MovieContext.MovieCache.ClearCache | Recommendation_System/frontend/src/context/movieContext.jsx:201-210 | the four categories become empty, other categories are dropped, and the search table is emptied |
| MovieContext.MovieCache.ClearSearchCache | Recommendation_System/frontend/src/context/movieContext.jsx:213-216 | only the search table is emptied |
| MovieContext.MovieCache.GetCache | Recommendation_System/frontend/src/context/movieContext.jsx:219-231 | the category's entry, created empty first when unknown |
| MovieContext.HomeRequestedTwice | Recommendation_System/frontend/src/context/movieContext.jsx:104-106 | two same-tick calls for `home` share request 0, exactly one call to `/api/cold-sample`; a later call is a hit on truthy data |
| MovieContext.RefreshDuringFetch | Recommendation_System/frontend/src/context/movieContext.jsx:189-198 | a refresh during a fetch lets a second request out; the first response then clears the entry's loading flag and promise |
| Api.ResolveUrl | Recommendation_System/frontend/src/lib/api.js:8-22 | `http…` unchanged; `/api…` after API_BASE; other `/…` unchanged; anything else becomes API_BASE + `/api/` + path |
| Api.ResolveKeepsPath | Recommendation_System/frontend/src/lib/api.js:8-22 | the path is always the tail of the URL: resolution only prepends |
| Api.ResolveIdempotent | Recommendation_System/frontend/src/lib/api.js:5-22 | with an unset or http(s) API_BASE, resolving a resolved URL changes nothing |
| Api.MergeHeaders | Recommendation_System/frontend/src/lib/api.js:32-38 | every caller header is copied; a non-empty Authorization is never overwritten; `Bearer <t>` is added iff none was given and the stored token t is non-empty |
| Api.MergeHeadersIdempotent | Recommendation_System/frontend/src/lib/api.js:32-38 | a second merge changes nothing exactly when the first left a non-empty Authorization header, whatever storage then holds, or storage has no non-empty token |
| Api.Prepare | Recommendation_System/frontend/src/lib/api.js:7-41 | the request sent carries the resolved URL, the merged headers, and the caller's method and body |
| Api.BodyKindOf | Recommendation_System/frontend/src/lib/api.js:49-51 | JSON parsing is chosen iff the content type contains `application/json` |
| Api.ParseBody | Recommendation_System/frontend/src/lib/api.js:49-55 | the body is the parsed JSON or the text, and null when that read fails |
| Api.ErrorValue | Recommendation_System/frontend/src/lib/api.js:58 | a truthy `data.detail` wins, then a truthy `data.message`, else `Request failed: <status>`; the chosen value is always truthy |
| Api.Complete | Recommendation_System/frontend/src/lib/api.js:41-68 | ok status resolves to the parsed body; any other status and any network failure reject, with no other outcome |
| Api.DetailReachesCaller | Recommendation_System/frontend/src/lib/api.js:57-61 | a non-ok JSON body with a non-empty string `detail` rejects with exactly that text |
| Api.TextErrorUsesStatus | Recommendation_System/frontend/src/lib/api.js:49-61 | a non-ok non-JSON body rejects with the status message |
| Auth.ProfileRequestUsesGivenToken | Recommendation_System/frontend/src/context/authContext.jsx:18 | the profile request goes to API_BASE + `/api/current_user` with exactly `Authorization: Bearer <token>`, whatever storage holds |
| Auth.PostsCarryStoredToken | Recommendation_System/frontend/src/context/authContext.jsx:32-36 | the JSON posts of login and signup also carry the stored token as a bearer header |
| Auth.AccessToken | Recommendation_System/frontend/src/context/authContext.jsx:37-39 | a token exists iff the response is non-null with a truthy `access_token`, and it is that field (its `String()` form; a non-empty string as is) |
| Auth.LoginResult | Recommendation_System/frontend/src/context/authContext.jsx:31-45 | login rejects with the post's error, or `Login failed` without a token; after a token it settles exactly as the profile request does, its error included |
| Auth.Session.constructor | Recommendation_System/frontend/src/context/authContext.jsx:7-9 | token is the stored token (an empty one reads as none), user null, not loading, no requests |
| Auth.Session.RunLoadEffect | Recommendation_System/frontend/src/context/authContext.jsx:12-29 | without a token the user is cleared and nothing is requested; with one, loading is set and the profile requested; the previous load is ignored from then on |
| Auth.Session.SettleLoad | Recommendation_System/frontend/src/context/authContext.jsx:17-26 | an ignored load changes nothing; success sets the user; failure clears user, token and stored token; loading ends |
| Auth.Session.Login | Recommendation_System/frontend/src/context/authContext.jsx:31-36 | login up to its first await: one post to `/api/login` with the credentials and the stored token, awaited as a login; no other state changes |
| Auth.Session.Signup | Recommendation_System/frontend/src/context/authContext.jsx:47-57 | signup up to its first await: one post to `/api/signup` with the four fields and the stored token, awaited as a signup; no other state changes |
| Auth.Session.Resume | Recommendation_System/frontend/src/context/authContext.jsx:31-69 | after the signup post: rethrow, or post the login with the same credentials; after the login post: rethrow, `Login failed` without a truthy access_token, or store the token in storage and state and request the profile with it; after the profile: rethrow, or set the user whatever the token now is, resolving login to the profile and signup to its own response |
| Auth.Session.FinishLogin | Recommendation_System/frontend/src/context/authContext.jsx:37-44 | the rest of a posted login with nothing interleaved: settles as `LoginResult` (or to the signup response when it was an auto-login) and stores the token before the profile request |
| Auth.Session.LoginUninterrupted | Recommendation_System/frontend/src/context/authContext.jsx:31-45 | a whole login with nothing interleaved settles exactly as `LoginResult`; without an access_token nothing is stored; otherwise storage and token hold it before the profile request, and a profile becomes the user |
| Auth.Session.SignupUninterrupted | Recommendation_System/frontend/src/context/authContext.jsx:47-69 | a failed signup rethrows with no login attempt; otherwise login with the same credentials, resolving to the signup response or rethrowing the login error |
| Auth.Session.Logout | Recommendation_System/frontend/src/context/authContext.jsx:71-75 | stored token, token and user cleared; no request |
| Auth.LogoutDuringLogin | Recommendation_System/frontend/src/context/authContext.jsx:39-43 | a logout while login awaits the profile leaves the profile as the user with no token in state or storage, and login still resolves to the profile |
| Auth.StaleTokenOnReload | Recommendation_System/frontend/src/context/authContext.jsx:7-22 | a rejected stored token on reload ends anonymous with storage cleared after one request |
| History.FirstFetched | Recommendation_System/backend/app/routes/history.py:12-26 | the result is a truthy value some attempt returned; with no unexpected exception, any truthy return is found |
| History.CallsMade | Recommendation_System/backend/app/routes/history.py:14-26 | at most as many calls as attempts allowed, at least one when any is allowed |
| History.FirstStopDecides | Recommendation_System/backend/app/routes/history.py:14-25 | the first attempt that returns a truthy value or raises an unexpected exception decides: that value (or None), after exactly that many calls |
| History.NoStopExhausts | Recommendation_System/backend/app/routes/history.py:14-26 | when every attempt fails with a requests exception or returns nothing truthy, all attempts are made and the result is None |
| History.CrashStopsRetrying | Recommendation_System/backend/app/routes/history.py:23-25 | an unexpected exception on the first attempt returns None after a single call |
| History.SafeFetchMovie | Recommendation_System/backend/app/routes/history.py:12-26 | the loop returns the first truthy result within `retries` attempts, moving on after a request exception or empty result and stopping at any other exception |
| History.HistoryEntry | Recommendation_System/backend/app/routes/history.py:41-53 | safe_fetch_movie's result with the default three retries, or the placeholder for that id when it gives None |
| History.PlaceholderNamesId | Recommendation_System/backend/app/routes/history.py:47-53 | the placeholder carries the id, title `Unavailable` and status `unavailable` |
| History.HistoryResponse.Body | Recommendation_System/backend/app/routes/history.py:34-55 | the body always has a `movies` list, with the "No history found" message when there is no history and the user otherwise |
| History.HistoryStore.GetHistory | Recommendation_System/backend/app/routes/history.py:29-55 | `NoHistory` (movies `[]`) for no record or an empty list; otherwise exactly one entry per stored id, in order |
| History.HistoryStore.CreateHistory | Recommendation_System/backend/app/routes/history.py:58-80 | new email gets `[movie_id]`; a listed id changes nothing ("already exists"); otherwise the id is appended; duplicate-free lists stay duplicate-free |

## Left out

- Promises and the event loop are not modelled as such. Each `await` splits its function into steps: a synchronous begin step that issues the request, and a continuation (`Settle`, `SettleLoad`, `Resume`) that the environment may run at any later point, interleaved with other steps in any order.
- `getCacheInfo` and all `console.log`/`console.error` output are debugging aids with no effect on state.
- `Date.now()` is an integer argument, and the `fetch` call is a transport outcome argument.
- `localStorage` is the `stored` field. In the shim a storage read that throws is treated as "no token", as its `catch {}` does (api.js:34-37).
- The provider's own storage calls are unguarded: `getItem` at mount (authContext.jsx:7), `removeItem` after a failed load and at logout (lines 22 and 72), and `setItem` at login (line 39). A throw from any of them is not modelled.
- Strings are sequences of Unicode scalar values, so a lone surrogate cannot be represented. `encodeURIComponent` throws a URIError on one (movieContext.jsx:147), and the search would take its failure path; that case is not modelled.
- The cache methods require a category name other than `"search"`. In the source that name reaches the search table itself, since both live in one object.
- `FetchWithCache` is only called with the four fixed category names, as its four bindings do.
- A query or category name that collides with an `Object.prototype` property (`constructor`, `__proto__`, …) is treated as an ordinary key.
- `toLowerCase` is modelled for ASCII letters only. Non-ASCII case mapping is not part of this model.
- JSON numbers are integers. Fractions, NaN and the text form of non-integer numbers are not modelled.
- Request bodies are kept as JSON values; `JSON.stringify` is not modelled.
- `Auth.Session.Resume`: React runs the load effect after `setToken`. That second profile request is the separate `RunLoadEffect` step the environment calls after each token change, not part of `Resume`.
- A truthy non-string `access_token` is kept as its `String()` form, in storage and in state alike.
- `time.sleep(delay)` in the retry loop, and the internals of `fetch_movie_from_tmdb`, are not modelled. Its per-attempt outcome is an input.
- The MongoDB calls (`find_one`, `insert_one`, `update_one`) act on a map with one record per email. A missing `movie_list` is the same as `[]`. Concurrent route calls and duplicate records are not modelled.
- Authentication of the history routes (`get_current_user`) is not modelled; the email is an argument.

=== FILE: api.dfy ===
/**
 * The HTTP client shim `apiFetch` of the browser client: URL resolution against
 * the configured API origin, bearer-token injection, the choice between JSON
 * and text parsing, and the single success/failure channel with its error
 * message. The network call itself is a parameter (the transport outcome).
 */
module Api {
  import opened Wrappers
  import opened JsValue
  import Text

  type Headers = map<string, string>

  /** The `options` argument: method, headers and body, each possibly absent. */
  datatype Options = Options(verb: Option<string>, headers: Option<Headers>, body: Option<Json>)

  /** What is handed to the platform fetch: the URL and the HTTP method (verb), the merged headers and the body. */
  datatype Request = Request(url: string, verb: Option<string>, headers: Headers, body: Option<Json>)

  /**
   * A response as the shim reads it: the status, the content-type header if any,
   * and the outcomes of reading the body as JSON or as text (None when that read rejects).
   */
  datatype Response = Response(status: int, contentType: Option<string>, json: Option<Json>, text: Option<string>)

  /** The outcome of the platform fetch: a response, or a network failure with its message. */
  datatype Transport = Received(response: Response) | NetworkError(message: string)

  datatype BodyKind = JsonBody | TextBody

  const AuthorizationHeader := "Authorization"

  /** The URL a request for `path` goes to, given the configured origin `apiBase` ("" when unset). */
  function ResolveUrl(path: string, apiBase: string): (url: string)
    ensures Text.StartsWith(path, "http") ==> url == path
    ensures !Text.StartsWith(path, "http") && Text.StartsWith(path, "/api") ==> url == apiBase + path
    ensures !Text.StartsWith(path, "http") && Text.StartsWith(path, "/") && !Text.StartsWith(path, "/api") ==> url == path
    ensures !Text.StartsWith(path, "http") && !Text.StartsWith(path, "/") ==> url == apiBase + "/api/" + path
  {
    if Text.StartsWith(path, "http") then path
    else if Text.StartsWith(path, "/") then
      (if Text.StartsWith(path, "/api") then apiBase + path else path)
    else apiBase + "/api/" + path
  }

  /** Resolution only ever prepends: the path is always the tail of the URL. */
  lemma ResolveKeepsPath(path: string, apiBase: string)
    ensures Text.EndsWith(ResolveUrl(path, apiBase), path)
  {
    var url := ResolveUrl(path, apiBase);
    assert url[|url| - |path|..] == path;
  }

  /**
   * A resolved URL resolves to itself when the origin is unset or is an absolute
   * http(s) origin, so resolving twice never prefixes the origin twice.
   */
  lemma ResolveIdempotent(path: string, apiBase: string)
    requires apiBase == "" || Text.StartsWith(apiBase, "http")
    ensures ResolveUrl(ResolveUrl(path, apiBase), apiBase) == ResolveUrl(path, apiBase)
  {
    var url := ResolveUrl(path, apiBase);
    if Text.StartsWith(path, "http") {
    } else if Text.StartsWith(path, "/") && !Text.StartsWith(path, "/api") {
    } else if apiBase == "" {
      if Text.StartsWith(path, "/") {
        assert url == path;
      } else {
        assert url == "/api/" + path;
        assert url[..4] == "/api";
        assert url[..1] == "/";
      }
    } else {
      assert url[..|apiBase|] == apiBase;
      assert url[..4] == apiBase[..4];
    }
  }

  /** True when `headers` already carries a non-empty Authorization value (an empty one is falsy). */
  predicate HasAuthorization(headers: Headers) {
    AuthorizationHeader in headers && headers[AuthorizationHeader] != ""
  }

  /**
   * The headers sent: every caller header, plus `Authorization: Bearer <t>` when the
   * caller gave no (non-empty) Authorization and the stored token t is non-empty.
   * `stored` is None when storage holds no token or cannot be read.
   */
  function MergeHeaders(headers: Headers, stored: Option<string>): (merged: Headers)
    ensures forall k :: k in headers ==> k in merged
    ensures forall k :: k in headers && (k != AuthorizationHeader || HasAuthorization(headers)) ==> merged[k] == headers[k]
    ensures merged.Keys <= headers.Keys + {AuthorizationHeader}
    ensures HasAuthorization(headers) ==> merged == headers
    ensures merged != headers <==> !HasAuthorization(headers) && stored.Some? && stored.value != ""
    ensures merged != headers ==> merged[AuthorizationHeader] == "Bearer " + stored.value
  {
    if !HasAuthorization(headers) && stored.Some? && stored.value != "" then
      var merged := headers[AuthorizationHeader := "Bearer " + stored.value];
      assert merged[AuthorizationHeader] != "";
      assert AuthorizationHeader in merged.Keys;
      merged
    else headers
  }

  /**
   * A second merge changes nothing exactly when the first left an Authorization header
   * (whatever token storage holds by then) or storage has no non-empty token to add.
   */
  lemma MergeHeadersIdempotent(headers: Headers, stored: Option<string>, storedLater: Option<string>)
    ensures var merged := MergeHeaders(headers, stored);
      MergeHeaders(merged, storedLater) == merged
      <==> HasAuthorization(merged) || storedLater.None? || storedLater.value == ""
  {
  }

  /** The request apiFetch(path, options) hands to fetch. */
  function Prepare(path: string, options: Options, apiBase: string, stored: Option<string>): (req: Request)
    ensures req.url == ResolveUrl(path, apiBase)
    ensures req.headers == MergeHeaders(options.headers.GetOr(map[]), stored)
    ensures req.verb == options.verb && req.body == options.body
  {
    Request(ResolveUrl(path, apiBase), options.verb, MergeHeaders(options.headers.GetOr(map[]), stored), options.body)
  }

  /** JSON parsing is chosen exactly when the content type mentions application/json. */
  function BodyKindOf(contentType: Option<string>): (kind: BodyKind)
    ensures kind == JsonBody <==> contentType.Some? && Text.Includes(contentType.value, "application/json")
  {
    if Text.Includes(contentType.GetOr(""), "application/json") then JsonBody else TextBody
  }

  /** The parsed body: a JSON value, a text string, or null when the chosen read fails. */
  function ParseBody(response: Response): (data: Json)
    ensures BodyKindOf(response.contentType) == JsonBody ==> data == response.json.GetOr(JNull)
    ensures BodyKindOf(response.contentType) == TextBody ==>
      data == (if response.text.Some? then JStr(response.text.value) else JNull)
  {
    match BodyKindOf(response.contentType)
    case JsonBody => response.json.GetOr(JNull)
    case TextBody => if response.text.Some? then JStr(response.text.value) else JNull
  }

  /** `res.ok`: a status in the 2xx range. */
  predicate IsOk(status: int) {
    200 <= status <= 299
  }

  /** The generic message used when the body offers none. */
  function StatusMessage(status: int): (msg: string) {
    "Request failed: " + Text.IntToDecimal(status)
  }

  /** The value the Error is built from: `data.detail`, else `data.message`, else the status message. */
  function ErrorValue(data: Json, status: int): (v: Json)
    ensures JsTruthy(data) && JsTruthyOpt(Prop(data, "detail")) ==> v == Prop(data, "detail").value
    ensures JsTruthy(data) && !JsTruthyOpt(Prop(data, "detail")) && JsTruthyOpt(Prop(data, "message")) ==>
      v == Prop(data, "message").value
    ensures !JsTruthy(data) || (!JsTruthyOpt(Prop(data, "detail")) && !JsTruthyOpt(Prop(data, "message"))) ==>
      v == JStr(StatusMessage(status))
    ensures JsTruthy(v)
  {
    if !JsTruthy(data) then JStr(StatusMessage(status))
    else if JsTruthyOpt(Prop(data, "detail")) then Prop(data, "detail").value
    else if JsTruthyOpt(Prop(data, "message")) then Prop(data, "message").value
    else JStr(StatusMessage(status))
  }

  /** The message of the Error a non-ok response raises. */
  function ErrorMessage(data: Json, status: int): (msg: string) {
    JsString(ErrorValue(data, status))
  }

  /**
   * What the promise apiFetch returns settles to: the parsed body for an ok
   * response; for every other status and for a network failure, a rejection.
   */
  function Complete(outcome: Transport): (r: Result<Json, string>)
    ensures outcome.NetworkError? ==> r == Failure(outcome.message)
    ensures outcome.Received? && IsOk(outcome.response.status) ==> r == Success(ParseBody(outcome.response))
    ensures outcome.Received? && !IsOk(outcome.response.status) ==>
      r == Failure(ErrorMessage(ParseBody(outcome.response), outcome.response.status))
  {
    match outcome
    case NetworkError(message) => Failure(message)
    case Received(response) =>
      var data := ParseBody(response);
      if IsOk(response.status) then Success(data) else Failure(ErrorMessage(data, response.status))
  }

  /** A FastAPI-style error body's string `detail` is the message the caller sees. */
  lemma DetailReachesCaller(response: Response, detail: string)
    requires !IsOk(response.status)
    requires BodyKindOf(response.contentType) == JsonBody
    requires response.json.Some? && response.json.value.JObj?
    requires "detail" in response.json.value.fields && response.json.value.fields["detail"] == JStr(detail)
    requires detail != ""
    ensures Complete(Received(response)) == Failure(detail)
  {
  }

  /** A non-ok response whose body is not JSON always fails with the status message. */
  lemma TextErrorUsesStatus(response: Response)
    requires !IsOk(response.status)
    requires BodyKindOf(response.contentType) == TextBody
    ensures Complete(Received(response)) == Failure(StatusMessage(response.status))
  {
  }
}

=== FILE: auth.dfy ===
/**
 * The session store of AuthProvider: the token, the user profile, the loading
 * flag and the token persisted in browser storage, driven by the profile-load
 * effect, login, signup and logout. Every network call goes through the HTTP
 * shim and is recorded in `requests`; its outcome is a parameter.
 */
module Auth {
  import opened Wrappers
  import opened JsValue
  import Api
  import Text

  const CurrentUserPath := "/api/current_user"
  const LoginPath := "/api/login"
  const SignupPath := "/api/signup"
  const LoginFailedMessage := "Login failed"

  /** The options of the profile request: an explicit bearer header built from the token in state. */
  function ProfileOptions(token: string): (options: Api.Options) {
    Api.Options(None, Some(map[Api.AuthorizationHeader := "Bearer " + token]), None)
  }

  function JsonPost(body: map<string, Json>): (options: Api.Options) {
    Api.Options(Some("POST"), Some(map["Content-Type" := "application/json"]), Some(JObj(body)))
  }

  function LoginOptions(email: string, password: string): (options: Api.Options) {
    JsonPost(map["email" := JStr(email), "password" := JStr(password)])
  }

  function SignupOptions(name: string, email: string, password: string, genres: Json): (options: Api.Options) {
    JsonPost(map["name" := JStr(name), "email" := JStr(email), "password" := JStr(password), "genres" := genres])
  }

  /** The profile request always authenticates with the token it is given, whatever storage holds. */
  lemma ProfileRequestUsesGivenToken(token: string, apiBase: string, stored: Option<string>)
    ensures var req := Api.Prepare(CurrentUserPath, ProfileOptions(token), apiBase, stored);
      && req.url == apiBase + CurrentUserPath
      && req.headers == map[Api.AuthorizationHeader := "Bearer " + token]
  {
    assert Api.HasAuthorization(map[Api.AuthorizationHeader := "Bearer " + token]);
    assert Text.StartsWith(CurrentUserPath, "/api") && !Text.StartsWith(CurrentUserPath, "http");
  }

  /** The login and signup posts carry whatever token storage still holds, as a bearer header. */
  lemma PostsCarryStoredToken(options: Api.Options, apiBase: string, stored: string)
    requires options.headers == Some(map["Content-Type" := "application/json"])
    requires stored != ""
    ensures Api.Prepare(LoginPath, options, apiBase, Some(stored)).headers ==
      map["Content-Type" := "application/json", Api.AuthorizationHeader := "Bearer " + stored]
  {
  }

  /** `res?.access_token`, when truthy, as the string storage keeps. */
  function AccessToken(res: Json): (t: Option<string>)
    ensures t.Some? <==> res != JNull && JsTruthyOpt(Prop(res, "access_token"))
    ensures res.JObj? && "access_token" in res.fields && JsTruthy(res.fields["access_token"]) ==>
      t == Some(JsString(res.fields["access_token"]))
    ensures res.JObj? && "access_token" in res.fields && res.fields["access_token"].JStr? && res.fields["access_token"].s != "" ==>
      t == Some(res.fields["access_token"].s)
  {
    if res == JNull then None
    else
      var field := Prop(res, "access_token");
      if JsTruthyOpt(field) then Some(JsString(field.value)) else None
  }

  /** What login resolves to (the profile) or rejects with, given the two responses it awaits. */
  function LoginResult(loginOutcome: Result<Json, string>, profileOutcome: Result<Json, string>): (r: Result<Json, string>)
    ensures loginOutcome.Failure? ==> r == loginOutcome
    ensures loginOutcome.Success? && AccessToken(loginOutcome.value).None? ==> r == Failure(LoginFailedMessage)
    ensures loginOutcome.Success? && AccessToken(loginOutcome.value).Some? ==> r == profileOutcome
    ensures r.Success? ==> loginOutcome.Success? && AccessToken(loginOutcome.value).Some? && r == profileOutcome
  {
    match loginOutcome
    case Failure(msg) => Failure(msg)
    case Success(res) =>
      if AccessToken(res).None? then Failure(LoginFailedMessage) else profileOutcome
  }

  /**
   * Where an awaited login or signup request resumes. `signup` holds the signup
   * response that an auto-login started by signup resolves to in the end.
   */
  datatype Continuation =
    | SignupPosted(email: string, password: string)
    | LoginPosted(signup: Option<Json>)
    | ProfileRequested(signup: Option<Json>)

  /** What resuming gives: the next request awaited, or how login / signup settles. */
  datatype Step = Awaiting(request: nat) | Finished(result: Result<Json, string>)

  /** Signed out, signed in with the profile still loading, or signed in with a profile; read off the state. */
  datatype Phase = Anonymous | Resolving | Authenticated

  class Session {
    /** The configured API origin ("" when unset). */
    const apiBase: string
    /** The "token" item of browser storage. */
    var stored: Option<string>
    var token: Option<string>
    /** The profile; JNull when there is none. */
    var user: Json
    var loading: bool
    /** Every request sent, in order. */
    var requests: seq<Api.Request>
    /** The profile load whose `ignore` flag is still false: the only one whose result is applied. */
    var liveLoad: Option<nat>
    /** The login and signup requests still awaited, and where each resumes. */
    var awaiting: map<nat, Continuation>

    /** The token in memory is the persisted one (an empty stored string reads as no token). */
    ghost predicate Valid()
      reads this
    {
      && (token == stored || (token.None? && stored == Some("")))
      && (liveLoad.Some? ==> liveLoad.value < |requests| && liveLoad.value !in awaiting)
      && (forall id :: id in awaiting ==> id < |requests|)
    }

    function PhaseOf(): (phase: Phase)
      reads this
    {
      if token.None? then Anonymous else if user == JNull then Resolving else Authenticated
    }

    /** Mounting: the token comes from storage, nobody is signed in yet, nothing is loading. */
    constructor (apiBase: string, stored: Option<string>)
      ensures Valid()
      ensures this.apiBase == apiBase && this.stored == stored
      ensures token == (if stored.Some? && stored.value != "" then stored else None)
      ensures user == JNull && !loading && requests == [] && liveLoad.None? && awaiting == map[]
    {
      this.apiBase := apiBase;
      this.stored := stored;
      token := if stored.Some? && stored.value != "" then stored else None;
      user := JNull;
      loading := false;
      requests := [];
      liveLoad := None;
      awaiting := map[];
    }

    /**
     * The load effect, run after every render in which `token` changed: the
     * previous run's result is to be ignored from now on, and without a token the
     * user is cleared with no request; with one, the profile is requested.
     */
    method RunLoadEffect()
      requires Valid()
      modifies this
      ensures Valid()
      ensures token == old(token) && stored == old(stored) && awaiting == old(awaiting)
      ensures token.None? ==> user == JNull && loading == old(loading) && requests == old(requests) && liveLoad.None?
      ensures token.Some? ==>
        && user == old(user) && loading
        && requests == old(requests) + [Api.Prepare(CurrentUserPath, ProfileOptions(token.value), apiBase, stored)]
        && liveLoad == Some(|old(requests)|)
    {
      liveLoad := None;
      if token.None? {
        user := JNull;
        return;
      }
      loading := true;
      liveLoad := Some(|requests|);
      requests := requests + [Api.Prepare(CurrentUserPath, ProfileOptions(token.value), apiBase, stored)];
    }

    /**
     * The continuation of profile load `id`. An ignored load changes nothing; a
     * live one sets the user on success and, on failure, signs out and forgets
     * the stored token.
     */
    method SettleLoad(id: nat, outcome: Result<Json, string>)
      requires Valid()
      modifies this
      ensures Valid()
      ensures requests == old(requests) && awaiting == old(awaiting)
      ensures old(liveLoad) != Some(id) ==> unchanged(this)
      ensures old(liveLoad) == Some(id) && outcome.Success? ==>
        user == outcome.value && !loading && token == old(token) && stored == old(stored) && liveLoad.None?
      ensures old(liveLoad) == Some(id) && outcome.Failure? ==>
        user == JNull && token.None? && stored.None? && !loading && liveLoad.None?
    {
      if liveLoad != Some(id) {
        return;
      }
      match outcome {
        case Success(profile) =>
          user := profile;
        case Failure(_) =>
          user := JNull;
          token := None;
          stored := None;
      }
      loading := false;
      liveLoad := None;
    }

    /** login, up to its first await: the credentials are posted. */
    method Login(email: string, password: string) returns (id: nat)
      requires Valid()
      modifies this
      ensures Valid()
      ensures id == |old(requests)|
      ensures requests == old(requests) + [Api.Prepare(LoginPath, LoginOptions(email, password), apiBase, old(stored))]
      ensures awaiting == old(awaiting)[id := LoginPosted(None)]
      ensures token == old(token) && stored == old(stored) && user == old(user)
      ensures loading == old(loading) && liveLoad == old(liveLoad)
    {
      id := |requests|;
      requests := requests + [Api.Prepare(LoginPath, LoginOptions(email, password), apiBase, stored)];
      awaiting := awaiting[id := LoginPosted(None)];
    }

    /** signup, up to its first await: the new account is posted. */
    method Signup(name: string, email: string, password: string, genres: Json) returns (id: nat)
      requires Valid()
      modifies this
      ensures Valid()
      ensures id == |old(requests)|
      ensures requests == old(requests) + [Api.Prepare(SignupPath, SignupOptions(name, email, password, genres), apiBase, old(stored))]
      ensures awaiting == old(awaiting)[id := SignupPosted(email, password)]
      ensures token == old(token) && stored == old(stored) && user == old(user)
      ensures loading == old(loading) && liveLoad == old(liveLoad)
    {
      id := |requests|;
      requests := requests + [Api.Prepare(SignupPath, SignupOptions(name, email, password, genres), apiBase, stored)];
      awaiting := awaiting[id := SignupPosted(email, password)];
    }

    /**
     * The continuation of awaited request `id` once its outcome arrives.
     *  - Signup posted: a failure is rethrown; otherwise login starts with the same credentials.
     *  - Login posted: a failure is rethrown, no truthy access_token fails with "Login failed";
     *    otherwise the token goes to storage and state, and the profile is requested.
     *  - Profile requested: a failure is rethrown; otherwise the profile becomes the user
     *    (whatever the token is by then), and login resolves to it, signup to its own response.
     */
    method Resume(id: nat, outcome: Result<Json, string>) returns (step: Step)
      requires Valid() && id in awaiting
      modifies this
      ensures Valid()
      ensures loading == old(loading) && liveLoad == old(liveLoad)
      ensures var next := |old(requests)|;
        match old(awaiting[id])
        case SignupPosted(email, password) =>
          && token == old(token) && stored == old(stored) && user == old(user)
          && (outcome.Failure? ==>
                step == Finished(outcome) && requests == old(requests) && awaiting == old(awaiting) - {id})
          && (outcome.Success? ==>
                && step == Awaiting(next)
                && requests == old(requests) + [Api.Prepare(LoginPath, LoginOptions(email, password), apiBase, old(stored))]
                && awaiting == (old(awaiting) - {id})[next := LoginPosted(Some(outcome.value))])
        case LoginPosted(signup) =>
          && (outcome.Failure? || AccessToken(outcome.value).None? ==>
                && step == Finished(if outcome.Failure? then outcome else Failure(LoginFailedMessage))
                && token == old(token) && stored == old(stored) && user == old(user)
                && requests == old(requests) && awaiting == old(awaiting) - {id})
          && (outcome.Success? && AccessToken(outcome.value).Some? ==>
                var t := AccessToken(outcome.value).value;
                && step == Awaiting(next)
                && stored == Some(t) && token == Some(t) && user == old(user)
                && requests == old(requests) + [Api.Prepare(CurrentUserPath, ProfileOptions(t), apiBase, Some(t))]
                && awaiting == (old(awaiting) - {id})[next := ProfileRequested(signup)])
        case ProfileRequested(signup) =>
          && token == old(token) && stored == old(stored)
          && requests == old(requests) && awaiting == old(awaiting) - {id}
          && (outcome.Failure? ==> step == Finished(outcome) && user == old(user))
          && (outcome.Success? ==>
                user == outcome.value && step == Finished(if signup.Some? then Success(signup.value) else outcome))
    {
      var next := |requests|;
      var c := awaiting[id];
      awaiting := awaiting - {id};
      match c {
        case SignupPosted(email, password) =>
          if outcome.Failure? {
            return Finished(outcome);
          }
          requests := requests + [Api.Prepare(LoginPath, LoginOptions(email, password), apiBase, stored)];
          awaiting := awaiting[next := LoginPosted(Some(outcome.value))];
          step := Awaiting(next);
        case LoginPosted(signup) =>
          if outcome.Failure? {
            return Finished(outcome);
          }
          var t := AccessToken(outcome.value);
          if t.None? {
            return Finished(Failure(LoginFailedMessage));
          }
          stored := t;
          token := t;
          requests := requests + [Api.Prepare(CurrentUserPath, ProfileOptions(t.value), apiBase, stored)];
          awaiting := awaiting[next := ProfileRequested(signup)];
          step := Awaiting(next);
        case ProfileRequested(signup) =>
          if outcome.Failure? {
            return Finished(outcome);
          }
          user := outcome.value;
          step := Finished(if signup.Some? then Success(signup.value) else outcome);
      }
    }

    /** What the rest of a login does once its post has been sent, when nothing else runs meanwhile. */
    twostate predicate LoginTail(loginOutcome: Result<Json, string>, profileOutcome: Result<Json, string>)
      reads this
    {
      && loading == old(loading) && liveLoad == old(liveLoad)
      && (loginOutcome.Failure? || AccessToken(loginOutcome.value).None? ==>
            requests == old(requests) && token == old(token) && stored == old(stored) && user == old(user))
      && (loginOutcome.Success? && AccessToken(loginOutcome.value).Some? ==>
            var t := AccessToken(loginOutcome.value).value;
            && stored == Some(t) && token == Some(t)
            && requests == old(requests) + [Api.Prepare(CurrentUserPath, ProfileOptions(t), apiBase, Some(t))]
            && user == (if profileOutcome.Success? then profileOutcome.value else old(user)))
    }

    /** The two resumptions of a posted login `id`, with nothing interleaved. */
    method FinishLogin(id: nat, loginOutcome: Result<Json, string>, profileOutcome: Result<Json, string>)
      returns (r: Result<Json, string>)
      requires Valid() && id in awaiting && awaiting[id].LoginPosted?
      modifies this
      ensures Valid()
      ensures awaiting == old(awaiting) - {id}
      ensures LoginTail(loginOutcome, profileOutcome)
      ensures var signup := old(awaiting[id]).signup;
        r == if LoginResult(loginOutcome, profileOutcome).Success? && signup.Some? then Success(signup.value)
             else LoginResult(loginOutcome, profileOutcome)
    {
      ghost var rest := awaiting - {id};
      var step := Resume(id, loginOutcome);
      if step.Finished? {
        return step.result;
      }
      var profile := step.request;
      assert profile !in rest;
      step := Resume(profile, profileOutcome);
      assert awaiting == rest;
      r := step.result;
    }

    /** What a whole login does to the session when nothing else runs during its awaits. */
    twostate predicate LoginEffect(email: string, password: string, loginOutcome: Result<Json, string>,
                                  profileOutcome: Result<Json, string>, before: seq<Api.Request>)
      reads this
    {
      var sent := before + [Api.Prepare(LoginPath, LoginOptions(email, password), apiBase, old(stored))];
      && loading == old(loading) && liveLoad == old(liveLoad) && awaiting == old(awaiting)
      && (loginOutcome.Failure? || AccessToken(loginOutcome.value).None? ==>
            requests == sent && token == old(token) && stored == old(stored) && user == old(user))
      && (loginOutcome.Success? && AccessToken(loginOutcome.value).Some? ==>
            var t := AccessToken(loginOutcome.value).value;
            && stored == Some(t) && token == Some(t)
            && requests == sent + [Api.Prepare(CurrentUserPath, ProfileOptions(t), apiBase, Some(t))]
            && user == (if profileOutcome.Success? then profileOutcome.value else old(user)))
    }

    /**
     * A login whose awaits are not interleaved with anything: it settles as
     * LoginResult says, with the token stored before the profile is requested.
     */
    method LoginUninterrupted(email: string, password: string, loginOutcome: Result<Json, string>,
                              profileOutcome: Result<Json, string>) returns (r: Result<Json, string>)
      requires Valid()
      modifies this
      ensures Valid()
      ensures r == LoginResult(loginOutcome, profileOutcome)
      ensures LoginEffect(email, password, loginOutcome, profileOutcome, old(requests))
    {
      ghost var waiting := awaiting;
      var id := Login(email, password);
      r := FinishLogin(id, loginOutcome, profileOutcome);
      assert waiting - {id} == waiting;
    }

    /**
     * A signup whose awaits are not interleaved with anything: a failed post is
     * rethrown with no login; otherwise the auto-login runs, and signup resolves
     * to its own response or rethrows the login error.
     */
    method SignupUninterrupted(name: string, email: string, password: string, genres: Json,
                               signupOutcome: Result<Json, string>, loginOutcome: Result<Json, string>,
                               profileOutcome: Result<Json, string>) returns (r: Result<Json, string>)
      requires Valid()
      modifies this
      ensures Valid()
      ensures var signupRequest := Api.Prepare(SignupPath, SignupOptions(name, email, password, genres), apiBase, old(stored));
        && (signupOutcome.Failure? ==>
              r == signupOutcome && requests == old(requests) + [signupRequest]
              && token == old(token) && stored == old(stored) && user == old(user)
              && loading == old(loading) && liveLoad == old(liveLoad) && awaiting == old(awaiting))
        && (signupOutcome.Success? ==>
              && LoginEffect(email, password, loginOutcome, profileOutcome, old(requests) + [signupRequest])
              && r == (if LoginResult(loginOutcome, profileOutcome).Success? then signupOutcome
                       else LoginResult(loginOutcome, profileOutcome)))
    {
      ghost var waiting := awaiting;
      var id := Signup(name, email, password, genres);
      var step := Resume(id, signupOutcome);
      assert waiting - {id} == waiting;
      if step.Finished? {
        return step.result;
      }
      var loginId := step.request;
      r := FinishLogin(loginId, loginOutcome, profileOutcome);
      assert waiting - {loginId} == waiting;
    }

    /** logout: forget the stored token, the token and the user; no request. */
    method Logout()
      requires Valid()
      modifies this
      ensures Valid()
      ensures stored.None? && token.None? && user == JNull
      ensures requests == old(requests) && loading == old(loading) && liveLoad == old(liveLoad) && awaiting == old(awaiting)
      ensures PhaseOf() == Anonymous
    {
      stored := None;
      token := None;
      user := JNull;
    }
  }

  /**
   * A stale stored token: the profile load fails, and the session ends up
   * anonymous with the token gone from storage.
   */
  method StaleTokenOnReload(apiBase: string, staleToken: string, rejection: string)
    returns (phase: Phase, stored: Option<string>, calls: nat)
    requires staleToken != ""
    ensures phase == Anonymous && stored.None? && calls == 1
  {
    var session := new Session(apiBase, Some(staleToken));
    session.RunLoadEffect();
    session.SettleLoad(0, Failure(rejection));
    phase := session.PhaseOf();
    stored := session.stored;
    calls := |session.requests|;
  }

  /**
   * Logging out while login awaits the profile: the profile still lands and
   * becomes the user, so the session holds a user but no token.
   */
  method LogoutDuringLogin(apiBase: string, email: string, password: string, t: string, me: Json)
    returns (user: Json, token: Option<string>, stored: Option<string>, result: Result<Json, string>)
    requires t != "" && me != JNull
    ensures user == me && token.None? && stored.None? && result == Success(me)
  {
    var session := new Session(apiBase, None);
    var id := session.Login(email, password);
    var step := session.Resume(id, Success(JObj(map["access_token" := JStr(t)])));
    session.Logout();
    step := session.Resume(step.request, Success(me));
    user, token, stored := session.user, session.token, session.stored;
    result := step.result;
  }
}

=== FILE: history.dfy ===
/**
 * The watch-history routes of the backend: a per-email list of movie ids with
 * de-duplicating insertion, and a read that turns every stored id into exactly
 * one movie entry, fetching each with a bounded retry loop and substituting a
 * placeholder when the fetch gives nothing. The movie-database calls are
 * abstract: each attempt's outcome is an input.
 */
module History {
  import opened Wrappers
  import opened JsValue

  /** The retries safe_fetch_movie uses by default, and so for every id get_history reads. */
  const DefaultRetries := 3

  const AddedMessage := "Movie added to history."
  const AlreadyExistsMessage := "Movie already exists in history."
  const NoHistoryMessage := "No history found for this user"

  /** One call of fetch_movie_from_tmdb: a returned value, a requests exception, or any other exception. */
  datatype Attempt = Returned(data: Json) | RequestFailed | Crashed

  /**
   * Reference definition of safe_fetch_movie's result over the attempts it may make:
   * the first truthy returned value, unless an unexpected exception comes first.
   */
  function FirstFetched(attempts: seq<Attempt>): (r: Option<Json>)
    ensures r.Some? ==> PyTruthy(r.value) && Returned(r.value) in attempts
    ensures Crashed !in attempts && (exists d :: Returned(d) in attempts && PyTruthy(d)) ==> r.Some?
  {
    if attempts == [] then None
    else match attempts[0]
      case Returned(d) => if PyTruthy(d) then Some(d) else FirstFetched(attempts[1..])
      case RequestFailed => FirstFetched(attempts[1..])
      case Crashed => None
  }

  /** How many calls safe_fetch_movie makes over these attempts: up to and including the first that ends the loop. */
  function CallsMade(attempts: seq<Attempt>): (n: nat)
    ensures n <= |attempts|
    ensures attempts != [] ==> n >= 1
  {
    if attempts == [] then 0
    else match attempts[0]
      case Returned(d) => if PyTruthy(d) then 1 else 1 + CallsMade(attempts[1..])
      case RequestFailed => 1 + CallsMade(attempts[1..])
      case Crashed => 1
  }

  /** An attempt that ends the loop: a truthy movie, or an exception other than a requests one. */
  predicate EndsLoop(a: Attempt) {
    a.Crashed? || (a.Returned? && PyTruthy(a.data))
  }

  /**
   * The first attempt that ends the loop decides everything: a truthy value is
   * the result, an unexpected exception gives None, and no call is made after it.
   */
  lemma {:induction false} FirstStopDecides(attempts: seq<Attempt>, i: nat)
    requires i < |attempts| && EndsLoop(attempts[i])
    requires forall j :: 0 <= j < i ==> !EndsLoop(attempts[j])
    ensures FirstFetched(attempts) == (if attempts[i].Crashed? then None else Some(attempts[i].data))
    ensures CallsMade(attempts) == i + 1
  {
    if i > 0 {
      assert !EndsLoop(attempts[0]);
      forall j | 0 <= j < i - 1
        ensures !EndsLoop(attempts[1..][j])
      {
        assert attempts[1..][j] == attempts[j + 1];
      }
      FirstStopDecides(attempts[1..], i - 1);
    }
  }

  /** When no attempt ends the loop, every attempt is made and the result is None. */
  lemma {:induction false} NoStopExhausts(attempts: seq<Attempt>)
    requires forall j :: 0 <= j < |attempts| ==> !EndsLoop(attempts[j])
    ensures FirstFetched(attempts) == None
    ensures CallsMade(attempts) == |attempts|
  {
    if attempts != [] {
      assert !EndsLoop(attempts[0]);
      forall j | 0 <= j < |attempts| - 1
        ensures !EndsLoop(attempts[1..][j])
      {
        assert attempts[1..][j] == attempts[j + 1];
      }
      NoStopExhausts(attempts[1..]);
    }
  }

  /** An unexpected exception on the first call ends the loop at once, whatever the later attempts would give. */
  lemma CrashStopsRetrying(rest: seq<Attempt>)
    ensures FirstFetched([Crashed] + rest) == None && CallsMade([Crashed] + rest) == 1
  {
  }

  /**
   * safe_fetch_movie(movie_id, retries): `outcomes[i]` is what attempt i of
   * fetching that movie gives. Returns the movie (None for no movie) and the
   * number of calls made.
   */
  method SafeFetchMovie(retries: int, outcomes: seq<Attempt>) returns (movie: Option<Json>, calls: nat)
    requires retries <= |outcomes|
    ensures var n := if retries < 0 then 0 else retries;
      movie == FirstFetched(outcomes[..n]) && calls == CallsMade(outcomes[..n]) && calls <= n
  {
    var n := if retries < 0 then 0 else retries;
    calls := 0;
    for attempt := 0 to n
      invariant calls == attempt
      invariant FirstFetched(outcomes[..n]) == FirstFetched(outcomes[attempt..n])
      invariant CallsMade(outcomes[..n]) == attempt + CallsMade(outcomes[attempt..n])
    {
      assert outcomes[attempt..n][1..] == outcomes[attempt + 1..n];
      calls := calls + 1;
      match outcomes[attempt] {
        case Returned(data) =>
          if PyTruthy(data) {
            return Some(data), calls;
          }
        case RequestFailed =>
          // the source sleeps `delay` seconds here
        case Crashed =>
          return None, calls;
      }
    }
    movie := None;
  }

  /** The entry a failed fetch leaves in the history: the id, marked unavailable. */
  function Placeholder(movieId: int): (placeholder: Json) {
    JObj(map[
      "id" := JNum(movieId),
      "title" := JStr("Unavailable"),
      "overview" := JStr("Movie data could not be fetched from TMDB."),
      "poster_path" := JNull,
      "status" := JStr("unavailable")])
  }

  /** The entry get_history lists for one stored id, given the outcomes of fetching it. */
  function HistoryEntry(movieId: int, outcomes: seq<Attempt>): (entry: Json)
    requires |outcomes| >= DefaultRetries
    ensures FirstFetched(outcomes[..DefaultRetries]).None? ==> entry == Placeholder(movieId)
    ensures FirstFetched(outcomes[..DefaultRetries]).Some? ==>
      entry == FirstFetched(outcomes[..DefaultRetries]).value && PyTruthy(entry) && Returned(entry) in outcomes[..DefaultRetries]
  {
    match FirstFetched(outcomes[..DefaultRetries])
    case Some(m) => m
    case None => Placeholder(movieId)
  }

  /** A placeholder is always distinguishable by its status and always names its id. */
  lemma PlaceholderNamesId(movieId: int)
    ensures Placeholder(movieId).fields["id"] == JNum(movieId)
    ensures Placeholder(movieId).fields["status"] == JStr("unavailable")
    ensures Placeholder(movieId).fields["title"] == JStr("Unavailable")
  {
  }

  /** What get_history answers with. */
  datatype HistoryResponse = NoHistory | History(user: string, movies: seq<Json>)
  {
    /** The movies listed, empty when there is no history. */
    function Movies(): (movies: seq<Json>)
      ensures this.History? ==> movies == this.movies
      ensures this.NoHistory? ==> movies == []
    {
      match this
      case NoHistory => []
      case History(_, movies) => movies
    }

    /** The JSON body: always a "movies" list, with the message or the user beside it. */
    function Body(): (body: Json)
      ensures body.JObj? && "movies" in body.fields && body.fields["movies"] == JArr(Movies())
      ensures this.NoHistory? ==> "message" in body.fields && body.fields["message"] == JStr(NoHistoryMessage)
      ensures this.History? ==> "user" in body.fields && body.fields["user"] == JStr(this.user)
    {
      match this
      case NoHistory => JObj(map["message" := JStr(NoHistoryMessage), "movies" := JArr([])])
      case History(user, movies) => JObj(map["user" := JStr(user), "movies" := JArr(movies)])
    }
  }

  predicate DuplicateFree(ids: seq<int>) {
    forall i, j :: 0 <= i < j < |ids| ==> ids[i] != ids[j]
  }

  predicate AllDuplicateFree(records: map<string, seq<int>>) {
    forall email :: email in records ==> DuplicateFree(records[email])
  }

  /** The movie_history collection: one movie_list per email (a record without a list holds []). */
  class HistoryStore {
    var records: map<string, seq<int>>

    constructor (records: map<string, seq<int>>)
      ensures this.records == records
    {
      this.records := records;
    }

    /**
     * get_history for `email`; `fetches[i]` are the outcomes of fetching the i-th
     * stored id. One entry per stored id, in order: the movie, or a placeholder.
     */
    method GetHistory(email: string, fetches: seq<seq<Attempt>>) returns (response: HistoryResponse)
      requires email in records ==> |fetches| == |records[email]|
      requires forall i :: 0 <= i < |fetches| ==> |fetches[i]| >= DefaultRetries
      ensures email !in records || records[email] == [] ==> response == NoHistory
      ensures email in records && records[email] != [] ==>
        && response.History? && response.user == email
        && |response.movies| == |records[email]|
        && forall i :: 0 <= i < |response.movies| ==> response.movies[i] == HistoryEntry(records[email][i], fetches[i])
      ensures |response.Movies()| == if email in records then |records[email]| else 0
    {
      if email !in records || records[email] == [] {
        return NoHistory;
      }
      var ids := records[email];
      var movies: seq<Json> := [];
      for i := 0 to |ids|
        invariant |movies| == i
        invariant forall k :: 0 <= k < i ==> movies[k] == HistoryEntry(ids[k], fetches[k])
      {
        var movie, _ := SafeFetchMovie(DefaultRetries, fetches[i]);
        if movie.Some? {
          movies := movies + [movie.value];
        } else {
          movies := movies + [Placeholder(ids[i])];
        }
      }
      response := History(email, movies);
    }

    /**
     * create_history: a first record for a new email, nothing for an id already
     * listed, otherwise the id appended at the end.
     */
    method CreateHistory(email: string, movieId: int) returns (message: string)
      modifies this
      ensures email !in old(records) ==> records == old(records)[email := [movieId]] && message == AddedMessage
      ensures email in old(records) && movieId in old(records[email]) ==>
        records == old(records) && message == AlreadyExistsMessage
      ensures email in old(records) && movieId !in old(records[email]) ==>
        records == old(records)[email := old(records[email]) + [movieId]] && message == AddedMessage
      ensures email in records && movieId in records[email]
      ensures AllDuplicateFree(old(records)) ==> AllDuplicateFree(records)
    {
      if email !in records {
        records := records[email := [movieId]];
        return AddedMessage;
      }
      if movieId in records[email] {
        return AlreadyExistsMessage;
      }
      records := records[email := records[email] + [movieId]];
      message := AddedMessage;
    }
  }
}

=== FILE: json.dfy ===
/**
 * JSON values as the client and the server see them, together with the two
 * languages' notions of truthiness and JavaScript's String() conversion.
 * Numbers are integers; fractional numbers and NaN are not part of this model.
 */
module JsValue {
  import opened Wrappers
  import Text

  datatype Json =
    | JNull
    | JBool(b: bool)
    | JNum(n: int)
    | JStr(s: string)
    | JArr(items: seq<Json>)
    | JObj(fields: map<string, Json>)

  /** JavaScript truthiness: null, false, 0 and "" are falsy; every array and object is truthy. */
  predicate JsTruthy(v: Json) {
    match v
    case JNull => false
    case JBool(b) => b
    case JNum(n) => n != 0
    case JStr(s) => s != ""
    case JArr(_) => true
    case JObj(_) => true
  }

  /** JavaScript truthiness of a property read, where None stands for undefined. */
  predicate JsTruthyOpt(v: Option<Json>) {
    v.Some? && JsTruthy(v.value)
  }

  /** Python truthiness: None, False, 0 and empty strings, lists and dicts are falsy. */
  predicate PyTruthy(v: Json) {
    match v
    case JNull => false
    case JBool(b) => b
    case JNum(n) => n != 0
    case JStr(s) => |s| > 0
    case JArr(xs) => |xs| > 0
    case JObj(m) => |m| > 0
  }

  /**
   * The property access `v.name` on a non-null value: an object's own field,
   * and undefined (None) for a field it lacks and for strings, numbers,
   * booleans and arrays. Reading a property of null throws, so null is excluded.
   */
  function Prop(v: Json, name: string): (r: Option<Json>)
    requires v != JNull
    ensures r.Some? <==> v.JObj? && name in v.fields
    ensures r.Some? ==> r.value == v.fields[name]
  {
    match v
    case JObj(m) => if name in m then Some(m[name]) else None
    case _ => None
  }

  /** JavaScript's String(v): the text `new Error(v).message` holds and a template literal inserts. */
  function JsString(v: Json): (text: string)
  {
    match v
    case JNull => "null"
    case JBool(b) => if b then "true" else "false"
    case JNum(n) => Text.IntToDecimal(n)
    case JStr(s) => s
    case JArr(xs) =>
      // Array.prototype.toString joins the elements with commas, writing null as nothing.
      Text.Join(seq(|xs|, i requires 0 <= i < |xs| => if xs[i] == JNull then "" else JsString(xs[i])), ",")
    case JObj(_) => "[object Object]"
  }
}

=== FILE: movie_cache.dfy ===
/**
 * The client-side data cache of MoviesProvider: four fixed category entries
 * and an open table of search entries keyed by normalised query, each entry
 * holding data, a loading flag, the last error, the time of the last success
 * and the promise of the request in flight.
 *
 * A fetch is split at its `await`: the synchronous part (check the entry,
 * mark it loading, issue one request, store the promise) is one method call,
 * and the continuation that runs when the response arrives is `Settle`.
 * Promises are request ids (the index of the request in `requests`), the
 * clock is an integer number of milliseconds passed in by the caller.
 */
module MovieContext {
  import opened Wrappers
  import opened JsValue
  import Text

  /** CACHE_DURATION: five minutes in milliseconds. */
  const CacheDuration: int := 5 * 60 * 1000

  type RequestId = nat

  datatype Entry = Entry(
    data: Json,                 // JNull until a fetch has succeeded
    loading: bool,
    error: Option<string>,
    timestamp: Option<int>,     // Date.now() of the last success
    promise: Option<RequestId>) // the shared in-flight request

  const EmptyEntry := Entry(JNull, false, None, None, None)

  const TopRated := "topRated"
  const MyList := "myList"
  const Genres := "genres"
  const Home := "home"
  /** The key under which the search table lives beside the categories. */
  const SearchTableName := "search"

  const FixedCategories: set<string> := {TopRated, MyList, Genres, Home}

  function InitialCategories(): (m: map<string, Entry>)
    ensures m.Keys == FixedCategories
    ensures forall c :: c in m ==> m[c] == EmptyEntry
  {
    map[TopRated := EmptyEntry, MyList := EmptyEntry, Genres := EmptyEntry, Home := EmptyEntry]
  }

  const TopRatedEndpoint := "/api/top-rated?min_rating=7&min_votes=1000"
  const MyListEndpoint := "/api/user/history/"
  const ColdSampleEndpoint := "/api/cold-sample"
  const SearchPrefix := "/api/search?query="

  /** The request path of a search: the key, URI-component encoded, as the query parameter. */
  function SearchEndpoint(key: string): (path: string)
    ensures Text.StartsWith(path, SearchPrefix) && Text.UrlSafe(path[|SearchPrefix|..])
  {
    var path := SearchPrefix + Text.EncodeURIComponent(key);
    assert path[|SearchPrefix|..] == Text.EncodeURIComponent(key);
    path
  }

  /** The server reads the key back from the query parameter exactly. */
  lemma SearchEndpointCarriesKey(key: string)
    ensures Text.DecodeURIComponent(SearchEndpoint(key)[|SearchPrefix|..]) == Some(key)
  {
    assert SearchEndpoint(key)[|SearchPrefix|..] == Text.EncodeURIComponent(key);
    Text.DecodeEncode(key);
  }

  /** Distinct search keys are never sent as the same request. */
  lemma SearchEndpointInjective(k1: string, k2: string)
    requires SearchEndpoint(k1) == SearchEndpoint(k2)
    ensures k1 == k2
  {
    assert SearchEndpoint(k1)[|SearchPrefix|..] == Text.EncodeURIComponent(k1);
    assert SearchEndpoint(k2)[|SearchPrefix|..] == Text.EncodeURIComponent(k2);
    Text.EncodeInjective(k1, k2);
  }

  // ---------------------------------------------------------------------------
  // Freshness

  /** isCacheValid: a missing (or zero, hence falsy) timestamp is never valid. */
  predicate IsCacheValid(timestamp: Option<int>, now: int) {
    timestamp.Some? && timestamp.value != 0 && now - timestamp.value < CacheDuration
  }

  /** A success stays valid for exactly five minutes from its timestamp. */
  lemma ValidityWindow(t: int, now: int)
    requires t != 0
    ensures IsCacheValid(Some(t), now) <==> now < t + 300000
    ensures !IsCacheValid(None, now)
  {
  }

  // ---------------------------------------------------------------------------
  // One entry, one step at a time

  /** The two tables differ in how a fetch starts and how a result or failure is written back. */
  datatype Table = CategoryTable | SearchTable

  /** What the synchronous part of a fetch decides for an entry. */
  datatype Decision = Hit(data: Json) | Join(request: RequestId) | Miss

  function Lookup(e: Entry, now: int): (d: Decision) {
    if JsTruthy(e.data) && IsCacheValid(e.timestamp, now) then Hit(e.data)
    else if e.loading && e.promise.Some? then Join(e.promise.value)
    else Miss
  }

  /** What a caller gets back: the data itself, or the promise of a request. */
  datatype Reply = Ready(value: Json) | Pending(request: RequestId)

  /**
   * The entry once request `id` has been issued for it. A category start clears
   * the error; a search start leaves it. Both keep the old data and timestamp.
   */
  function Started(table: Table, e: Entry, id: RequestId): (started: Entry) {
    match table
    case CategoryTable => e.(loading := true, error := None, promise := Some(id))
    case SearchTable => e.(loading := true, promise := Some(id))
  }

  /**
   * One call of fetchWithCache / searchMovies on entry e at time `now`, where
   * `next` is the id a new request would get: the reply, the new entry, and
   * whether a request was issued.
   */
  function Call(table: Table, e: Entry, now: int, next: RequestId): (step: (Reply, Entry, bool)) {
    match Lookup(e, now)
    case Hit(data) => (Ready(data), e, false)
    case Join(id) => (Pending(id), e, false)
    case Miss => (Pending(next), Started(table, e, next), true)
  }

  /** The TypeError a `res.movies` read raises when the response body is null. */
  const NullMoviesMessage := "Cannot read properties of null (reading 'movies')"

  /** The data a successful response stores: `res.movies || res` for a category, `res.movies || []` for a search. */
  function StoredData(table: Table, res: Json): (r: Result<Json, string>)
    ensures r.Failure? <==> res == JNull
    ensures r.Success? && JsTruthyOpt(Prop(res, "movies")) ==> r.value == Prop(res, "movies").value
    ensures r.Success? && !JsTruthyOpt(Prop(res, "movies")) ==> r.value == (if table == CategoryTable then res else JArr([]))
    ensures table == SearchTable && r.Success? ==> JsTruthy(r.value)
  {
    if res == JNull then Failure(NullMoviesMessage)
    else
      var movies := Prop(res, "movies");
      if JsTruthyOpt(movies) then Success(movies.value)
      else if table == CategoryTable then Success(res) else Success(JArr([]))
  }

  /** The entry after a failure with `msg`: a category keeps its data and timestamp, a search entry is emptied. */
  function Failed(table: Table, e: Entry, msg: string): (failed: Entry) {
    match table
    case CategoryTable => e.(loading := false, error := Some(msg), promise := None)
    case SearchTable => EmptyEntry.(error := Some(msg))
  }

  /**
   * The continuation after the await: the entry written back (the current entry
   * is e) and what the promise settles to. A failure is rethrown to every caller.
   */
  function Settled(table: Table, e: Entry, outcome: Result<Json, string>, now: int): (step: (Entry, Result<Json, string>)) {
    match outcome
    case Failure(msg) => (Failed(table, e, msg), Failure(msg))
    case Success(res) =>
      match StoredData(table, res)
      case Failure(msg) => (Failed(table, e, msg), Failure(msg))
      case Success(data) => (Entry(data, false, None, Some(now), None), Success(data))
  }

  // ---------------------------------------------------------------------------
  // Properties of the steps

  /** A fresh entry is returned as it is, with no request and no change. */
  lemma CacheHit(table: Table, e: Entry, now: int, next: RequestId)
    requires JsTruthy(e.data) && IsCacheValid(e.timestamp, now)
    ensures Call(table, e, now, next) == (Ready(e.data), e, false)
  {
  }

  /** An entry that is loading with a stored promise hands out that promise and issues nothing. */
  lemma JoinInFlight(table: Table, e: Entry, now: int, next: RequestId)
    requires !(JsTruthy(e.data) && IsCacheValid(e.timestamp, now))
    requires e.loading && e.promise.Some?
    ensures Call(table, e, now, next) == (Pending(e.promise.value), e, false)
  {
  }

  /** An emptied entry (refreshCategory, clearCache, a new search key) always goes to the network. */
  lemma EmptyEntryFetches(table: Table, now: int, next: RequestId)
    ensures Call(table, EmptyEntry, now, next).2
    ensures Call(table, EmptyEntry, now, next).0 == Pending(next)
  {
  }

  /** Once the five minutes are over, the next call that finds no request in flight issues one. */
  lemma ExpiredEntryFetches(table: Table, e: Entry, now: int, next: RequestId)
    requires e.timestamp.Some? && now - e.timestamp.value >= CacheDuration
    requires !e.loading
    ensures Call(table, e, now, next) == (Pending(next), Started(table, e, next), true)
  {
  }

  /**
   * Calls made at the times `times` (in order) before anything settles: the
   * replies, the final entry and the number of requests issued.
   */
  function Calls(table: Table, e: Entry, times: seq<int>, next: RequestId): (steps: (seq<Reply>, Entry, nat))
    decreases |times|
  {
    if times == [] then ([], e, 0)
    else
      var (r, e1, issued) := Call(table, e, times[0], next);
      var (rs, e2, k) := Calls(table, e1, times[1..], if issued then next + 1 else next);
      ([r] + rs, e2, k + if issued then 1 else 0)
  }

  predicate NonDecreasing(times: seq<int>) {
    forall i, j :: 0 <= i < j < |times| ==> times[i] <= times[j]
  }

  /** Data that is not fresh now is not fresh later either. */
  lemma StaleStaysStale(e: Entry, now: int, later: int)
    requires now <= later && !Lookup(e, now).Hit?
    ensures !Lookup(e, later).Hit?
  {
  }

  /** Once an entry waits on request `id`, every later caller joins that request and none issues another. */
  lemma {:induction false} WaitersJoin(table: Table, e: Entry, times: seq<int>, next: RequestId, id: RequestId)
    requires NonDecreasing(times) && times != []
    requires Lookup(e, times[0]) == Join(id)
    ensures Calls(table, e, times, next).2 == 0
    ensures |Calls(table, e, times, next).0| == |times|
    ensures forall i :: 0 <= i < |times| ==> Calls(table, e, times, next).0[i] == Pending(id)
  {
    if |times| > 1 {
      StaleStaysStale(e, times[0], times[1]);
      WaitersJoin(table, e, times[1..], next, id);
    }
  }

  /**
   * What coalescing promises of the replies `rs` to calls at `times` that issued
   * `k` requests: at most one request; a caller served from the cache gets the
   * entry's own data; once any caller waits, every later caller waits on the
   * same request; and calls at one instant all get the same reply.
   */
  predicate Coalesced(e: Entry, times: seq<int>, rs: seq<Reply>, k: nat) {
    && |rs| == |times| && k <= 1
    && (forall i :: 0 <= i < |rs| && rs[i].Ready? ==> rs[i] == Ready(e.data))
    && (forall i, j :: 0 <= i < j < |rs| && rs[i].Pending? ==> rs[j] == rs[i])
    && ((forall i :: 0 <= i < |times| ==> times[i] == times[0]) ==> forall i :: 0 <= i < |rs| ==> rs[i] == rs[0])
  }

  /**
   * Coalescing: calls for one entry made before any response arrives, at
   * non-decreasing times, are `Coalesced`; if the first call misses or joins,
   * every caller shares one promise.
   */
  lemma {:induction false} CallsCoalesce(table: Table, e: Entry, times: seq<int>, next: RequestId)
    requires NonDecreasing(times) && times != []
    ensures var (rs, _, k) := Calls(table, e, times, next);
      && Coalesced(e, times, rs, k)
      && (Lookup(e, times[0]).Miss? ==> k == 1 && forall i :: 0 <= i < |rs| ==> rs[i] == Pending(next))
      && (Lookup(e, times[0]).Join? ==> k == 0 && forall i :: 0 <= i < |rs| ==> rs[i] == Pending(e.promise.value))
      && (Lookup(e, times[0]).Hit? ==> rs[0] == Ready(e.data))
    decreases |times|, 1
  {
    var now := times[0];
    match Lookup(e, now)
    case Miss =>
      var started := Started(table, e, next);
      assert Lookup(started, now) == Join(next);
      if |times| > 1 {
        StaleStaysStale(started, now, times[1]);
        WaitersJoin(table, started, times[1..], next + 1, next);
      }
    case Join(id) =>
      WaitersJoin(table, e, times, next, id);
    case Hit(data) =>
      HitThenCoalesce(table, e, times, next);
  }

  /** The step of `CallsCoalesce` where the first call is served from the cache. */
  lemma {:induction false} HitThenCoalesce(table: Table, e: Entry, times: seq<int>, next: RequestId)
    requires NonDecreasing(times) && times != [] && Lookup(e, times[0]).Hit?
    ensures var (rs, _, k) := Calls(table, e, times, next);
      Coalesced(e, times, rs, k) && rs[0] == Ready(e.data)
    decreases |times|, 0
  {
    if |times| > 1 {
      CallsCoalesce(table, e, times[1..], next);
      var rs := Calls(table, e, times, next).0;
      var tail := Calls(table, e, times[1..], next).0;
      assert rs == [Ready(e.data)] + tail;
      forall i, j | 0 <= i < j < |rs| && rs[i].Pending?
        ensures rs[j] == rs[i]
      {
        assert rs[i] == tail[i - 1] && rs[j] == tail[j - 1];
      }
      if forall i :: 0 <= i < |times| ==> times[i] == times[0] {
        assert forall i :: 0 <= i < |times| - 1 ==> times[1..][i] == times[1..][0];
        assert Lookup(e, times[1]).Hit?;
        forall i | 0 <= i < |rs|
          ensures rs[i] == rs[0]
        {
          if i > 0 {
            assert rs[i] == tail[i - 1];
          }
        }
      }
    }
  }

  /** After a success whose stored data is truthy, calls within the next five minutes are hits on that data. */
  lemma SuccessServesHits(table: Table, e: Entry, res: Json, now: int, later: int, next: RequestId)
    requires now != 0 && now <= later < now + CacheDuration
    requires StoredData(table, res).Success? && JsTruthy(StoredData(table, res).value)
    ensures var (e', r) := Settled(table, e, Success(res), now);
      && r == StoredData(table, res)
      && e'.error.None? && !e'.loading && e'.promise.None?
      && Call(table, e', later, next) == (Ready(r.value), e', false)
  {
  }

  /** A success whose stored data is falsy (an empty text body, say) serves no hit: the next call fetches again. */
  lemma FalsySuccessMisses(table: Table, e: Entry, res: Json, now: int, later: int, next: RequestId)
    requires StoredData(table, res).Success? && !JsTruthy(StoredData(table, res).value)
    ensures var (e', _) := Settled(table, e, Success(res), now);
      Call(table, e', later, next).2 && Call(table, e', later, next).0 == Pending(next)
  {
  }

  /** A failed category fetch keeps the previous data and timestamp, so stale data stays readable. */
  lemma CategoryFailureKeepsData(e: Entry, msg: string, now: int)
    ensures var (e', r) := Settled(CategoryTable, e, Failure(msg), now);
      && r == Failure(msg)
      && e'.data == e.data && e'.timestamp == e.timestamp
      && e'.error == Some(msg) && !e'.loading && e'.promise.None?
  {
  }

  /** A failed search forgets whatever the entry held: only the error remains. */
  lemma SearchFailureForgets(e: Entry, msg: string, now: int)
    ensures var (e', r) := Settled(SearchTable, e, Failure(msg), now);
      && r == Failure(msg)
      && e' == Entry(JNull, false, Some(msg), None, None)
  {
  }

  /** Every step keeps an entry's loading flag in step with its stored promise. */
  lemma StepsKeepLoadingWithPromise(table: Table, e: Entry, now: int, next: RequestId, outcome: Result<Json, string>)
    requires e.loading <==> e.promise.Some?
    ensures var e1 := Call(table, e, now, next).1; e1.loading <==> e1.promise.Some?
    ensures var e2 := Settled(table, e, outcome, now).0; !e2.loading && e2.promise.None?
  {
  }

  // ---------------------------------------------------------------------------
  // Search keys

  /** searchMovies answers [] without touching the cache unless the trimmed query has two or more UTF-16 units. */
  predicate SearchAllowed(query: Option<string>) {
    query.Some? && Text.Utf16Length(Text.Trim(query.value)) >= 2
  }

  /** The table key of a query: trimmed and lower-cased. */
  function SearchKey(query: string): (key: string)
    ensures forall i :: 0 <= i < |key| ==> !('A' <= key[i] <= 'Z')
    ensures key == [] || (!Text.IsJsSpace(key[0]) && !Text.IsJsSpace(key[|key| - 1]))
  {
    Text.Lower(Text.Trim(query))
  }

  /** The key is the lower-cased query with only its surrounding white space removed. */
  lemma SearchKeyIsLoweredCore(query: string)
    ensures exists pre, post :: Text.AllSpace(pre) && Text.AllSpace(post) && Text.Lower(query) == pre + SearchKey(query) + post
  {
    Text.LowerTrim(query);
    Text.TrimIsInfix(Text.Lower(query), SearchKey(query));
  }

  /** Queries that differ only in the case of ASCII letters share one entry. */
  lemma SearchKeyIgnoresCase(q1: string, q2: string)
    requires Text.Lower(q1) == Text.Lower(q2)
    ensures SearchKey(q1) == SearchKey(q2)
  {
    Text.LowerTrim(q1);
    Text.LowerTrim(q2);
  }

  /** Queries that differ only in surrounding white space share one entry and pass the guard alike. */
  lemma SearchKeyIgnoresPadding(pre: string, q: string, post: string)
    requires Text.AllSpace(pre) && Text.AllSpace(post)
    ensures SearchKey(pre + q + post) == SearchKey(q)
    ensures SearchAllowed(Some(pre + q + post)) == SearchAllowed(Some(q))
  {
    Text.TrimIgnoresPadding(pre, q, post);
  }

  // ---------------------------------------------------------------------------
  // The cache object

  /** The entry a request writes back to when it settles. */
  datatype Target = CategoryOf(name: string) | QueryOf(key: string)

  /** An entry is loading exactly when it holds a promise, and that promise is an unsettled request for it. */
  predicate Tracked(e: Entry, target: Target, pending: map<RequestId, Target>) {
    && (e.loading <==> e.promise.Some?)
    && (e.promise.Some? ==> e.promise.value in pending && pending[e.promise.value] == target)
  }

  class MovieCache {
    var categories: map<string, Entry>
    var search: map<string, Entry>
    /** Every request issued, in order: the network calls. A request's id is its index. */
    var requests: seq<string>
    /** The requests whose response has not yet been processed, and where each writes back. */
    var pending: map<RequestId, Target>

    ghost predicate Valid()
      reads this
    {
      && FixedCategories <= categories.Keys
      && SearchTableName !in categories
      && (forall c :: c in categories ==> Tracked(categories[c], CategoryOf(c), pending))
      && (forall k :: k in search ==> Tracked(search[k], QueryOf(k), pending))
      && (forall id :: id in pending ==> id < |requests|)
      && (forall id :: id in pending && pending[id].CategoryOf? ==> pending[id].name in FixedCategories)
    }

    constructor ()
      ensures Valid()
      ensures categories == InitialCategories() && search == map[] && requests == [] && pending == map[]
    {
      categories := InitialCategories();
      search := map[];
      requests := [];
      pending := map[];
    }

    /** The effect of one synchronous get-or-fetch on category c with request path `endpoint`. */
    twostate predicate CategoryStepped(c: string, endpoint: string, now: int, r: Reply)
      reads this
      requires c in old(categories)
    {
      var next := |old(requests)|;
      var (reply, e, issued) := Call(CategoryTable, old(categories[c]), now, next);
      && r == reply
      && categories == old(categories)[c := e]
      && search == old(search)
      && requests == old(requests) + (if issued then [endpoint] else [])
      && pending == (if issued then old(pending)[next := CategoryOf(c)] else old(pending))
    }

    /** fetchWithCache, up to its await. */
    method FetchWithCache(category: string, endpoint: string, now: int) returns (r: Reply)
      requires Valid() && category in FixedCategories
      modifies this
      ensures Valid()
      ensures CategoryStepped(category, endpoint, now, r)
    {
      var cache := categories[category];
      if JsTruthy(cache.data) && IsCacheValid(cache.timestamp, now) {
        return Ready(cache.data);
      }
      if cache.loading && cache.promise.Some? {
        return Pending(cache.promise.value);
      }
      var id := |requests|;
      categories := categories[category := cache.(loading := true, error := None)];
      requests := requests + [endpoint];
      pending := pending[id := CategoryOf(category)];
      categories := categories[category := categories[category].(promise := Some(id))];
      r := Pending(id);
    }

    method FetchTopRated(now: int) returns (r: Reply)
      requires Valid()
      modifies this
      ensures Valid()
      ensures CategoryStepped(TopRated, TopRatedEndpoint, now, r)
    {
      r := FetchWithCache(TopRated, TopRatedEndpoint, now);
    }

    method FetchMyList(now: int) returns (r: Reply)
      requires Valid()
      modifies this
      ensures Valid()
      ensures CategoryStepped(MyList, MyListEndpoint, now, r)
    {
      r := FetchWithCache(MyList, MyListEndpoint, now);
    }

    method FetchGenres(now: int) returns (r: Reply)
      requires Valid()
      modifies this
      ensures Valid()
      ensures CategoryStepped(Genres, ColdSampleEndpoint, now, r)
    {
      r := FetchWithCache(Genres, ColdSampleEndpoint, now);
    }

    method FetchHome(now: int) returns (r: Reply)
      requires Valid()
      modifies this
      ensures Valid()
      ensures CategoryStepped(Home, ColdSampleEndpoint, now, r)
    {
      r := FetchWithCache(Home, ColdSampleEndpoint, now);
    }

    /** The effect of one synchronous get-or-fetch on the search entry for `key`. */
    twostate predicate SearchStepped(key: string, now: int, r: Reply)
      reads this
    {
      var next := |old(requests)|;
      var e0 := if key in old(search) then old(search[key]) else EmptyEntry;
      var (reply, e, issued) := Call(SearchTable, e0, now, next);
      && r == reply
      && search == old(search)[key := e]
      && categories == old(categories)
      && requests == old(requests) + (if issued then [SearchEndpoint(key)] else [])
      && pending == (if issued then old(pending)[next := QueryOf(key)] else old(pending))
    }

    /** searchMovies, up to its await. `query` is None for a null or undefined query. */
    method SearchMovies(query: Option<string>, now: int) returns (r: Reply)
      requires Valid()
      modifies this
      ensures Valid()
      ensures !SearchAllowed(query) ==> r == Ready(JArr([])) && unchanged(this)
      ensures SearchAllowed(query) ==> SearchStepped(SearchKey(query.value), now, r)
    {
      if !SearchAllowed(query) {
        return Ready(JArr([]));
      }
      r := SearchByKey(SearchKey(query.value), now);
    }

    /** The part of searchMovies after the guard, for an already normalised key. */
    method SearchByKey(key: string, now: int) returns (r: Reply)
      requires Valid()
      modifies this
      ensures Valid()
      ensures SearchStepped(key, now, r)
    {
      // A key seen for the first time starts from an empty entry, which can only miss.
      var entry := if key in search then search[key] else EmptyEntry;
      if JsTruthy(entry.data) && IsCacheValid(entry.timestamp, now) {
        return Ready(entry.data);
      }
      if entry.loading && entry.promise.Some? {
        return Pending(entry.promise.value);
      }
      var id := |requests|;
      assert id !in pending;
      ghost var before := search;
      ghost var waiting := pending;
      requests := requests + [SearchEndpoint(key)];
      pending := pending[id := QueryOf(key)];
      search := search[key := Started(SearchTable, entry, id)];
      r := Pending(id);
      forall k | k in search
        ensures Tracked(search[k], QueryOf(k), pending)
      {
        if k != key {
          assert search[k] == before[k];
          assert Tracked(before[k], QueryOf(k), waiting);
        }
      }
      forall c | c in categories
        ensures Tracked(categories[c], CategoryOf(c), pending)
      {
        assert Tracked(categories[c], CategoryOf(c), waiting);
      }
    }

    /**
     * The continuation of request `id` once its response (or failure) arrives at
     * time `now`: the write-back to its entry, and what every holder of the
     * promise receives. The write is unconditional: it lands even if the entry
     * was reset or restarted meanwhile.
     */
    method Settle(id: RequestId, outcome: Result<Json, string>, now: int) returns (r: Result<Json, string>)
      requires Valid() && id in pending
      modifies this
      ensures Valid()
      ensures requests == old(requests) && pending == old(pending) - {id}
      ensures old(pending[id]).CategoryOf? ==>
        var c := old(pending[id]).name;
        var (e, result) := Settled(CategoryTable, old(categories[c]), outcome, now);
        categories == old(categories)[c := e] && search == old(search) && r == result
      ensures old(pending[id]).QueryOf? ==>
        var k := old(pending[id]).key;
        var (e, result) := Settled(SearchTable, if k in old(search) then old(search[k]) else EmptyEntry, outcome, now);
        search == old(search)[k := e] && categories == old(categories) && r == result
    {
      var target := pending[id];
      ghost var before := pending;
      pending := pending - {id};
      // Only entries of `target` can hold promise `id`, and that one is rewritten.
      match target
      case CategoryOf(c) =>
        var step := Settled(CategoryTable, categories[c], outcome, now);
        StepsKeepLoadingWithPromise(CategoryTable, categories[c], now, id, outcome);
        assert Tracked(step.0, target, pending);
        categories := categories[c := step.0];
        r := step.1;
        forall c' | c' in categories && c' != c
          ensures Tracked(categories[c'], CategoryOf(c'), pending)
        {
          assert Tracked(categories[c'], CategoryOf(c'), before);
        }
        forall k | k in search
          ensures Tracked(search[k], QueryOf(k), pending)
        {
          assert Tracked(search[k], QueryOf(k), before);
        }
      case QueryOf(k) =>
        var entry := if k in search then search[k] else EmptyEntry;
        var step := Settled(SearchTable, entry, outcome, now);
        StepsKeepLoadingWithPromise(SearchTable, entry, now, id, outcome);
        assert Tracked(step.0, target, pending);
        search := search[k := step.0];
        r := step.1;
        forall c | c in categories
          ensures Tracked(categories[c], CategoryOf(c), pending)
        {
          assert Tracked(categories[c], CategoryOf(c), before);
        }
        forall k' | k' in search && k' != k
          ensures Tracked(search[k'], QueryOf(k'), pending)
        {
          assert Tracked(search[k'], QueryOf(k'), before);
        }
    }

    /** getSearchCache: the entry for the query's key, or an empty entry; nothing is inserted. */
    method GetSearchCache(query: Option<string>) returns (e: Entry)
      ensures query.Some? && SearchKey(query.value) != "" && SearchKey(query.value) in search ==>
        e == search[SearchKey(query.value)]
      ensures query.None? || SearchKey(query.value) == "" || SearchKey(query.value) !in search ==>
        e == EmptyEntry
    {
      if query.None? {
        return EmptyEntry;
      }
      var key := Text.Lower(Text.Trim(query.value));
      if key == "" || key !in search {
        return EmptyEntry;
      }
      e := search[key];
    }

    /** refreshCategory: resets that one entry and nothing else. */
    method RefreshCategory(category: string)
      requires Valid() && category != SearchTableName
      modifies this
      ensures Valid()
      ensures categories == old(categories)[category := EmptyEntry]
      ensures search == old(search) && requests == old(requests) && pending == old(pending)
    {
      categories := categories[category := EmptyEntry];
    }

    /** clearCache: the four categories back to empty and an empty search table. */
    method ClearCache()
      requires Valid()
      modifies this
      ensures Valid()
      ensures categories == InitialCategories() && search == map[]
      ensures requests == old(requests) && pending == old(pending)
    {
      categories := InitialCategories();
      search := map[];
    }

    /** clearSearchCache: empties the search table only. */
    method ClearSearchCache()
      requires Valid()
      modifies this
      ensures Valid()
      ensures search == map[]
      ensures categories == old(categories) && requests == old(requests) && pending == old(pending)
    {
      search := map[];
    }

    /** getCache: the category's entry, created empty first when the category is unknown. */
    method GetCache(category: string) returns (e: Entry)
      requires Valid() && category != SearchTableName
      modifies this
      ensures Valid()
      ensures category in old(categories) ==> e == old(categories[category]) && categories == old(categories)
      ensures category !in old(categories) ==> e == EmptyEntry && categories == old(categories)[category := EmptyEntry]
      ensures search == old(search) && requests == old(requests) && pending == old(pending)
    {
      if category !in categories {
        categories := categories[category := EmptyEntry];
      }
      e := categories[category];
    }
  }

  // ---------------------------------------------------------------------------
  // Scenarios

  /**
   * Two components ask for "home" in the same tick; the response arrives 50 ms
   * later. One request goes out, both share its promise, and a third call
   * afterwards is served from the cache.
   */
  method HomeRequestedTwice(now: int, body: Json) returns (first: Reply, second: Reply, settled: Result<Json, string>, third: Reply, calls: seq<string>)
    requires now > 0
    ensures first == Pending(0) && second == Pending(0)
    ensures calls == [ColdSampleEndpoint]
    ensures body != JNull ==> settled.Success?
    ensures settled.Success? && JsTruthy(settled.value) ==> third == Ready(settled.value)
  {
    var cache := new MovieCache();
    first := cache.FetchHome(now);
    second := cache.FetchHome(now);
    calls := cache.requests;
    settled := cache.Settle(0, Success(body), now + 50);
    third := cache.FetchHome(now + 100);
  }

  /**
   * refreshCategory while a request is in flight empties the entry at once, so
   * the next call issues a second request for the same category; when the first
   * response lands it overwrites the entry and clears the second one's promise.
   */
  method RefreshDuringFetch(now: int, body: Json) returns (first: Reply, second: Reply, calls: seq<string>, afterFirst: Entry)
    requires now > 0
    ensures first == Pending(0) && second == Pending(1)
    ensures calls == [ColdSampleEndpoint, ColdSampleEndpoint]
    ensures !afterFirst.loading && afterFirst.promise.None?
  {
    var cache := new MovieCache();
    first := cache.FetchHome(now);
    cache.RefreshCategory(Home);
    second := cache.FetchHome(now);
    var _ := cache.Settle(0, Success(body), now + 50);
    calls := cache.requests;
    afterFirst := cache.categories[Home];
  }
}

=== FILE: text.dfy ===
/**
 * The JavaScript string operations the client relies on: startsWith, includes,
 * trim, toLowerCase, the UTF-16 length, number formatting, Array.join and
 * encodeURIComponent. Strings are sequences of Unicode scalar values.
 */
module Text {
  import opened Wrappers

  predicate StartsWith(s: string, prefix: string) {
    |prefix| <= |s| && s[..|prefix|] == prefix
  }

  predicate EndsWith(s: string, suffix: string) {
    |suffix| <= |s| && s[|s| - |suffix|..] == suffix
  }

  /** `s.includes(part)`: part occurs somewhere in s. */
  predicate Includes(s: string, part: string) {
    StartsWith(s, part) || (|s| > 0 && Includes(s[1..], part))
  }

  // ---------------------------------------------------------------------------
  // trim

  /** The characters String.prototype.trim removes: WhiteSpace and LineTerminator of ECMAScript. */
  predicate IsJsSpace(c: char) {
    var n := c as int;
    // TAB, LF, VT, FF, CR, SPACE, NBSP, OGHAM SPACE MARK, U+2000..U+200A, LINE and PARAGRAPH
    // SEPARATOR, NARROW NBSP, MEDIUM MATHEMATICAL SPACE, IDEOGRAPHIC SPACE, BYTE ORDER MARK
    (0x09 <= n <= 0x0D) || n == 0x20 || n == 0xA0 || n == 0x1680 || (0x2000 <= n <= 0x200A) ||
    n == 0x2028 || n == 0x2029 || n == 0x202F || n == 0x205F || n == 0x3000 || n == 0xFEFF
  }

  predicate AllSpace(s: string) {
    forall i :: 0 <= i < |s| ==> IsJsSpace(s[i])
  }

  function TrimStart(s: string): (r: string)
    ensures r == [] || !IsJsSpace(r[0])
    ensures |r| <= |s| && r == s[|s| - |r|..]
  {
    if |s| > 0 && IsJsSpace(s[0]) then TrimStart(s[1..]) else s
  }

  function TrimEnd(s: string): (r: string)
    ensures r == [] || !IsJsSpace(r[|r| - 1])
    ensures |r| <= |s| && r == s[..|r|]
  {
    if |s| > 0 && IsJsSpace(s[|s| - 1]) then TrimEnd(s[..|s| - 1]) else s
  }

  /** `s.trim()`: the longest infix of s that neither starts nor ends with white space. */
  function Trim(s: string): (r: string)
    ensures r == [] || (!IsJsSpace(r[0]) && !IsJsSpace(r[|r| - 1]))
  {
    TrimEnd(TrimStart(s))
  }

  lemma {:induction false} TrimStartAfterSpace(pad: string, s: string)
    requires AllSpace(pad)
    ensures TrimStart(pad + s) == TrimStart(s)
  {
    if pad != [] {
      assert IsJsSpace((pad + s)[0]);
      assert (pad + s)[1..] == pad[1..] + s;
      assert TrimStart(pad + s) == TrimStart(pad[1..] + s);
      TrimStartAfterSpace(pad[1..], s);
    } else {
      assert pad + s == s;
    }
  }

  lemma {:induction false} TrimEndBeforeSpace(s: string, pad: string)
    requires AllSpace(pad)
    ensures TrimEnd(s + pad) == TrimEnd(s)
  {
    if pad != [] {
      var shorter := pad[..|pad| - 1];
      assert IsJsSpace((s + pad)[|s + pad| - 1]);
      assert (s + pad)[..|s + pad| - 1] == s + shorter;
      assert TrimEnd(s + pad) == TrimEnd(s + shorter);
      TrimEndBeforeSpace(s, shorter);
    } else {
      assert s + pad == s;
    }
  }

  lemma {:induction false} TrimStartAppend(s: string, tail: string)
    requires TrimStart(s) != []
    ensures TrimStart(s + tail) == TrimStart(s) + tail
  {
    if IsJsSpace(s[0]) {
      assert (s + tail)[1..] == s[1..] + tail;
      TrimStartAppend(s[1..], tail);
    }
  }

  lemma {:induction false} TrimStartEmpty(s: string)
    requires TrimStart(s) == []
    ensures AllSpace(s)
  {
    if s != [] {
      assert IsJsSpace(s[0]);
      assert TrimStart(s) == TrimStart(s[1..]);
      TrimStartEmpty(s[1..]);
      assert s == [s[0]] + s[1..];
      forall i | 0 <= i < |s|
        ensures IsJsSpace(s[i])
      {
        if i > 0 {
          assert s[i] == s[1..][i - 1];
        }
      }
    }
  }

  /** White space around a string never reaches the trimmed result. */
  lemma TrimIgnoresPadding(pre: string, s: string, post: string)
    requires AllSpace(pre) && AllSpace(post)
    ensures Trim(pre + s + post) == Trim(s)
  {
    assert pre + s + post == pre + (s + post);
    TrimStartAfterSpace(pre, s + post);
    if TrimStart(s) != [] {
      TrimStartAppend(s, post);
      TrimEndBeforeSpace(TrimStart(s), post);
    } else {
      TrimStartEmpty(s);
      assert AllSpace(s + post);
      assert s + post == (s + post) + [];
      TrimStartAfterSpace(s + post, []);
    }
  }

  /** What TrimStart drops is white space. */
  lemma {:induction false} TrimStartDropsSpace(s: string)
    ensures AllSpace(s[..|s| - |TrimStart(s)|])
  {
    if |s| > 0 && IsJsSpace(s[0]) {
      TrimStartDropsSpace(s[1..]);
      var dropped := s[..|s| - |TrimStart(s)|];
      forall i | 0 <= i < |dropped|
        ensures IsJsSpace(dropped[i])
      {
        if i > 0 {
          assert dropped[i] == s[1..][..|s| - 1 - |TrimStart(s[1..])|][i - 1];
        }
      }
    }
  }

  /** What TrimEnd drops is white space. */
  lemma {:induction false} TrimEndDropsSpace(s: string)
    ensures AllSpace(s[|TrimEnd(s)|..])
  {
    if |s| > 0 && IsJsSpace(s[|s| - 1]) {
      var shorter := s[..|s| - 1];
      TrimEndDropsSpace(shorter);
      var dropped := s[|TrimEnd(s)|..];
      forall i | 0 <= i < |dropped|
        ensures IsJsSpace(dropped[i])
      {
        if i < |dropped| - 1 {
          assert dropped[i] == shorter[|TrimEnd(shorter)|..][i];
        }
      }
    }
  }

  /** Cutting a string anywhere and joining the halves gives it back. */
  lemma SplitAt(s: string, k: nat)
    requires k <= |s|
    ensures s == s[..k] + s[k..]
  {
    assert s[..k] + s[k..] == s;
  }

  /** s is the white space TrimStart drops followed by what it keeps. */
  lemma TrimStartSplits(s: string)
    ensures var start := TrimStart(s);
      AllSpace(s[..|s| - |start|]) && s == s[..|s| - |start|] + start
  {
    TrimStartDropsSpace(s);
    SplitAt(s, |s| - |TrimStart(s)|);
  }

  /** s is what TrimEnd keeps followed by the white space it drops. */
  lemma TrimEndSplits(s: string)
    ensures var kept := TrimEnd(s);
      AllSpace(s[|kept|..]) && s == kept + s[|kept|..]
  {
    TrimEndDropsSpace(s);
    SplitAt(s, |TrimEnd(s)|);
  }

  lemma Regroup(s: string, pre: string, mid: string, post: string)
    requires s == pre + (mid + post)
    ensures s == pre + mid + post
  {
    assert pre + (mid + post) == pre + mid + post;
  }

  /** trim removes white space from both ends and nothing else. */
  lemma TrimSplits(s: string)
    ensures var start := TrimStart(s);
      var pre, post := s[..|s| - |start|], start[|Trim(s)|..];
      AllSpace(pre) && AllSpace(post) && s == pre + Trim(s) + post
  {
    var start := TrimStart(s);
    TrimStartSplits(s);
    TrimEndSplits(start);
    Regroup(s, s[..|s| - |start|], TrimEnd(start), start[|TrimEnd(start)|..]);
  }

  /** Whatever trim returns sits between white space in its argument. */
  lemma TrimIsInfix(s: string, core: string)
    requires core == Trim(s)
    ensures exists pre, post :: AllSpace(pre) && AllSpace(post) && s == pre + core + post
  {
    TrimSplits(s);
    var start := TrimStart(s);
    var pre, post := s[..|s| - |start|], start[|core|..];
    assert AllSpace(pre) && AllSpace(post) && s == pre + core + post;
  }

  // ---------------------------------------------------------------------------
  // toLowerCase (the ASCII letters only)

  function AsciiLower(c: char): (r: char)
    ensures IsJsSpace(r) == IsJsSpace(c)
  {
    if 'A' <= c <= 'Z' then (c as int + 32) as char else c
  }

  function Lower(s: string): (r: string)
    ensures |r| == |s|
    ensures forall i :: 0 <= i < |s| ==> r[i] == AsciiLower(s[i])
  {
    seq(|s|, i requires 0 <= i < |s| => AsciiLower(s[i]))
  }

  lemma {:induction false} LowerTrimStart(s: string)
    ensures Lower(TrimStart(s)) == TrimStart(Lower(s))
  {
    if |s| > 0 {
      assert Lower(s)[1..] == Lower(s[1..]);
      LowerTrimStart(s[1..]);
    }
  }

  lemma {:induction false} LowerTrimEnd(s: string)
    ensures Lower(TrimEnd(s)) == TrimEnd(Lower(s))
  {
    if |s| > 0 {
      assert Lower(s)[..|s| - 1] == Lower(s[..|s| - 1]);
      LowerTrimEnd(s[..|s| - 1]);
    }
  }

  /** Lower-casing and trimming can be done in either order. */
  lemma LowerTrim(s: string)
    ensures Lower(Trim(s)) == Trim(Lower(s))
  {
    LowerTrimStart(s);
    LowerTrimEnd(TrimStart(s));
  }

  // ---------------------------------------------------------------------------
  // length

  /** `s.length`: the number of UTF-16 code units, two for a character outside the Basic Multilingual Plane. */
  function Utf16Length(s: string): (n: nat)
    ensures |s| <= n <= 2 * |s|
  {
    if s == [] then 0 else (if s[0] as int > 0xFFFF then 2 else 1) + Utf16Length(s[1..])
  }

  // ---------------------------------------------------------------------------
  // numbers and joining

  function DigitChar(d: nat): (c: char)
    requires d < 10
    ensures '0' <= c <= '9'
  {
    "0123456789"[d]
  }

  function NatToDecimal(n: nat): (r: string)
    ensures |r| >= 1 && forall i :: 0 <= i < |r| ==> '0' <= r[i] <= '9'
  {
    if n < 10 then [DigitChar(n)] else NatToDecimal(n / 10) + [DigitChar(n % 10)]
  }

  /** String(n) for an integer n. */
  function IntToDecimal(n: int): (digits: string) {
    if n < 0 then "-" + NatToDecimal(-n) else NatToDecimal(n)
  }

  /** `parts.join(sep)`. */
  function Join(parts: seq<string>, sep: string): (joined: string) {
    if |parts| == 0 then ""
    else if |parts| == 1 then parts[0]
    else parts[0] + sep + Join(parts[1..], sep)
  }

  // ---------------------------------------------------------------------------
  // encodeURIComponent

  /** The characters encodeURIComponent leaves as they are. */
  predicate IsUnreserved(c: char) {
    ('A' <= c <= 'Z') || ('a' <= c <= 'z') || ('0' <= c <= '9') ||
    c == '-' || c == '_' || c == '.' || c == '!' || c == '~' || c == '*' || c == '\'' || c == '(' || c == ')'
  }

  predicate IsUpperHex(c: char) {
    ('0' <= c <= '9') || ('A' <= c <= 'F')
  }

  /** A string that can stand in a URL query unescaped: unreserved characters and %XX escapes. */
  predicate UrlSafe(s: string) {
    forall i :: 0 <= i < |s| ==> IsUnreserved(s[i]) || s[i] == '%' || IsUpperHex(s[i])
  }

  /** The UTF-8 encoding of one Unicode scalar value. */
  function Utf8(c: char): (bytes: seq<nat>)
    ensures 1 <= |bytes| <= 4
    ensures forall i :: 0 <= i < |bytes| ==> bytes[i] < 256
  {
    var cp := c as int;
    if cp < 0x80 then [cp]
    else if cp < 0x800 then [0xC0 + cp / 64, 0x80 + cp % 64]
    else if cp < 0x10000 then [0xE0 + cp / 4096, 0x80 + (cp / 64) % 64, 0x80 + cp % 64]
    else [0xF0 + cp / 262144, 0x80 + (cp / 4096) % 64, 0x80 + (cp / 64) % 64, 0x80 + cp % 64]
  }

  /** The upper-case hexadecimal digit of a value below 16. */
  function HexDigit(d: nat): (c: char)
    requires d < 16
    ensures IsUpperHex(c)
  {
    if d < 10 then ('0' as int + d) as char else ('A' as int + d - 10) as char
  }

  function PercentEncode(bytes: seq<nat>): (r: string)
    requires forall i :: 0 <= i < |bytes| ==> bytes[i] < 256
    ensures |r| == 3 * |bytes|
    ensures UrlSafe(r)
  {
    if bytes == [] then []
    else ['%', HexDigit(bytes[0] / 16), HexDigit(bytes[0] % 16)] + PercentEncode(bytes[1..])
  }

  /** The text encodeURIComponent writes for one character. */
  function CharCode(c: char): (r: string)
    ensures |r| >= 1
  {
    if IsUnreserved(c) then [c] else PercentEncode(Utf8(c))
  }

  /** `encodeURIComponent(s)`: unreserved characters kept, every other character as %XX escapes of its UTF-8 bytes. */
  function EncodeURIComponent(s: string): (r: string)
    ensures UrlSafe(r)
    ensures |s| <= |r|
    ensures (forall i :: 0 <= i < |s| ==> IsUnreserved(s[i])) ==> r == s
  {
    if s == [] then [] else CharCode(s[0]) + EncodeURIComponent(s[1..])
  }

  // ---------------------------------------------------------------------------
  // decodeURIComponent, the inverse of encodeURIComponent

  /** The value of a hexadecimal digit of either case. */
  function HexValue(c: char): (v: Option<nat>)
    ensures v.Some? ==> v.value < 16
  {
    if '0' <= c <= '9' then Some(c as int - '0' as int)
    else if 'A' <= c <= 'F' then Some(c as int - 'A' as int + 10)
    else if 'a' <= c <= 'f' then Some(c as int - 'a' as int + 10)
    else None
  }

  /** The byte of a `%XX` escape at the head of s. */
  function DecodeEscape(s: string): (b: Option<nat>)
    ensures b.Some? ==> |s| >= 3 && b.value < 256
  {
    if |s| >= 3 && s[0] == '%' && HexValue(s[1]).Some? && HexValue(s[2]).Some?
    then Some(16 * HexValue(s[1]).value + HexValue(s[2]).value)
    else None
  }

  /** The bytes of `n` consecutive escapes at the head of s. */
  function DecodeEscapes(s: string, n: nat): (bytes: Option<seq<nat>>)
    ensures bytes.Some? ==> |bytes.value| == n && 3 * n <= |s|
    ensures bytes.Some? ==> forall i :: 0 <= i < n ==> bytes.value[i] < 256
    decreases n
  {
    if n == 0 then Some([])
    else match DecodeEscape(s)
      case None => None
      case Some(b) =>
        match DecodeEscapes(s[3..], n - 1)
        case None => None
        case Some(rest) => Some([b] + rest)
  }

  /** How many bytes a UTF-8 sequence with this lead byte has; 0 when no sequence starts with it. */
  function SequenceLength(lead: nat): (n: nat)
    ensures n <= 4
  {
    if lead < 0x80 then 1
    else if 0xC2 <= lead < 0xE0 then 2
    else if 0xE0 <= lead < 0xF0 then 3
    else if 0xF0 <= lead < 0xF5 then 4
    else 0
  }

  predicate IsContinuation(b: nat) {
    0x80 <= b < 0xC0
  }

  /** The character a UTF-8 sequence encodes; None when it is malformed, overlong or a surrogate. */
  function Utf8Decode(bytes: seq<nat>): (c: Option<char>)
  {
    if |bytes| == 0 || SequenceLength(bytes[0]) != |bytes| then None
    else if exists i :: 1 <= i < |bytes| && !IsContinuation(bytes[i]) then None
    else
      var cp :=
        if |bytes| == 1 then bytes[0]
        else if |bytes| == 2 then (bytes[0] - 0xC0) * 64 + (bytes[1] - 0x80)
        else if |bytes| == 3 then (bytes[0] - 0xE0) * 4096 + (bytes[1] - 0x80) * 64 + (bytes[2] - 0x80)
        else (bytes[0] - 0xF0) * 262144 + (bytes[1] - 0x80) * 4096 + (bytes[2] - 0x80) * 64 + (bytes[3] - 0x80);
      if (|bytes| == 3 && cp < 0x800) || (|bytes| == 4 && cp < 0x10000) || cp > 0x10FFFF || 0xD800 <= cp < 0xE000
      then None
      else Some(cp as char)
  }

  /** `decodeURIComponent(s)`; None where it throws a URIError. */
  function DecodeURIComponent(s: string): (r: Option<string>)
    decreases |s|
  {
    if s == [] then Some([])
    else if s[0] != '%' then
      match DecodeURIComponent(s[1..])
      case None => None
      case Some(rest) => Some([s[0]] + rest)
    else
      match DecodeEscape(s)
      case None => None
      case Some(lead) =>
        var n := SequenceLength(lead);
        if n == 0 then None
        else
          match DecodeEscapes(s, n)
          case None => None
          case Some(bytes) =>
            match Utf8Decode(bytes)
            case None => None
            case Some(c) =>
              match DecodeURIComponent(s[3 * n..])
              case None => None
              case Some(rest) => Some([c] + rest)
  }

  lemma HexDigitValue(d: nat)
    requires d < 16
    ensures HexValue(HexDigit(d)) == Some(d)
  {
  }

  /** One escaped byte reads back as that byte, whatever follows it. */
  lemma EscapeDecodes(b: nat, rest: string)
    requires b < 256
    ensures DecodeEscape(['%', HexDigit(b / 16), HexDigit(b % 16)] + rest) == Some(b)
  {
    HexDigitValue(b / 16);
    HexDigitValue(b % 16);
  }

  /** Escaped bytes read back as the same bytes, whatever follows them. */
  lemma {:induction false} EscapesDecode(bytes: seq<nat>, rest: string)
    requires forall i :: 0 <= i < |bytes| ==> bytes[i] < 256
    ensures DecodeEscapes(PercentEncode(bytes) + rest, |bytes|) == Some(bytes)
    ensures bytes != [] ==> DecodeEscape(PercentEncode(bytes) + rest) == Some(bytes[0])
  {
    if bytes != [] {
      var b := bytes[0];
      var head := ['%', HexDigit(b / 16), HexDigit(b % 16)];
      var tail := PercentEncode(bytes[1..]) + rest;
      var s := PercentEncode(bytes) + rest;
      assert PercentEncode(bytes) == head + PercentEncode(bytes[1..]);
      assert s == head + tail;
      EscapeDecodes(b, tail);
      assert s[3..] == tail;
      EscapesDecode(bytes[1..], rest);
      assert DecodeEscapes(s[3..], |bytes| - 1) == Some(bytes[1..]);
      assert [b] + bytes[1..] == bytes;
    }
  }

  lemma Utf8TwoBytes(c: char)
    requires 0x80 <= c as int < 0x800
    ensures Utf8Decode(Utf8(c)) == Some(c)
  {
    var cp := c as int;
    assert cp == (cp / 64) * 64 + cp % 64;
  }

  lemma Utf8ThreeBytes(c: char)
    requires 0x800 <= c as int < 0x10000
    ensures Utf8Decode(Utf8(c)) == Some(c)
  {
    var cp := c as int;
    assert cp / 64 == (cp / 4096) * 64 + (cp / 64) % 64;
    assert cp == (cp / 4096) * 4096 + ((cp / 64) % 64) * 64 + cp % 64;
  }

  lemma Utf8FourBytes(c: char)
    requires 0x10000 <= c as int
    ensures Utf8Decode(Utf8(c)) == Some(c)
  {
    var cp := c as int;
    assert cp / 64 == (cp / 4096) * 64 + (cp / 64) % 64;
    assert cp / 4096 == (cp / 262144) * 64 + (cp / 4096) % 64;
    assert cp == (cp / 262144) * 262144 + ((cp / 4096) % 64) * 4096 + ((cp / 64) % 64) * 64 + cp % 64;
  }

  /** Every character's UTF-8 sequence is well-formed and decodes back to the character. */
  lemma Utf8RoundTrip(c: char)
    ensures SequenceLength(Utf8(c)[0]) == |Utf8(c)|
    ensures Utf8Decode(Utf8(c)) == Some(c)
  {
    var cp := c as int;
    if cp < 0x80 {
    } else if cp < 0x800 {
      Utf8TwoBytes(c);
    } else if cp < 0x10000 {
      Utf8ThreeBytes(c);
    } else {
      Utf8FourBytes(c);
    }
  }

  /** decodeURIComponent undoes encodeURIComponent. */
  lemma {:induction false} DecodeEncode(s: string)
    ensures DecodeURIComponent(EncodeURIComponent(s)) == Some(s)
  {
    if s != [] {
      var code := CharCode(s[0]);
      var rest := EncodeURIComponent(s[1..]);
      var r := code + rest;
      assert EncodeURIComponent(s) == r;
      DecodeEncode(s[1..]);
      if IsUnreserved(s[0]) {
        assert r[0] == s[0] && r[1..] == rest;
      } else {
        var bytes := Utf8(s[0]);
        EscapesDecode(bytes, rest);
        Utf8RoundTrip(s[0]);
        assert r[0] == '%';
        assert r[3 * |bytes|..] == rest;
      }
      assert [s[0]] + s[1..] == s;
    }
  }

  /** Distinct strings never share an encoding. */
  lemma EncodeInjective(s: string, t: string)
    requires EncodeURIComponent(s) == EncodeURIComponent(t)
    ensures s == t
  {
    DecodeEncode(s);
    DecodeEncode(t);
  }
}

=== FILE: wrappers.dfy ===
/** Optional values and success/failure results shared by every module. */
module Wrappers {

  /** A value that may be absent: JavaScript's null/undefined, Python's None. */
  datatype Option<+T> = None | Some(value: T) {
    function GetOr(default: T): (r: T) {
      match this
      case Some(v) => v
      case None => default
    }
  }

  /** The outcome of an operation that either returns a value or throws an error with a message. */
  datatype Result<+R, +E> = Success(value: R) | Failure(error: E)
}
